=== FILE: README.md ===
# FactoryAI core, modelled in Dafny

FactoryAI is a command-line orchestrator for three git-submodule components
(Factory-App-AI, Factory-Feature, Factory-Debug). Its core is made of four
pieces:

- an error taxonomy (`factoryai/exceptions.py`);
- a configuration record that normalises itself on construction and survives
  a round trip through a dictionary (`factoryai/config.py`);
- a handful of utilities (`factoryai/utils.py`): a subprocess wrapper, git
  probes, directory creation, version parsing and comparison, list
  formatting and truncation;
- the orchestrator (`factoryai/core.py`). It synchronises the submodules,
  reports component status, runs a component's entry script, and validates
  the installation.

This project models those pieces as pure functions over immutable data. The
modules are:

- `Errors`: the exception classes as a `Kind`. Raising is modelled as `Result`.
  `Render` is `str(error)`.
- `Paths`: pathlib paths as an absolute flag plus segments. `Path(text)`,
  `str(path)`, `/` and `.parent` are modelled.
- `FileSystems`: the filesystem as a map from path to file or directory.
  `mkdir(parents=True, exist_ok=True)`, `ensure_directory` and
  `is_git_repository` are modelled.
- `Process`: the operating system is a *launcher*, a function that tells
  how each process launch ends. `run_command` and `check_git_installed` are
  modelled over it.
- `Versions`, `Formatting`: `parse_version`, `compare_versions`,
  `format_list`, `truncate_string`.
- `Config`: `SubmoduleConfig`, `FactoryAIConfig` with `__post_init__` and
  the default components, `get_component_path`, `is_component_available`,
  `to_dict`, `from_dict`, and the error mapping of `load`.
- `Orchestrator`: the methods of `FactoryAIOrchestrator`. Each operation
  also returns the list of commands it handed to the launcher, so "launches
  nothing" and "launches exactly this" can be stated.
- `Strings`, `Wrappers`: `str.split`, `str.join`, decimal text, and `Option`.

Properties proved about the model:

- Text round trips. Splitting and joining, path text, version text, and
  `from_dict(to_dict(c))` for an absolute-root configuration all give back
  what they started from.
- The error text of each failure path, and the order in which the checks
  fire. The one approximated text is that of the `TypeError` from
  `from_dict`; see "## Left out".
- Filesystem properties of directory creation. It keeps every existing
  entry, keeps the filesystem well formed, and fails exactly when an
  ancestor is a file.
- Python's tuple order on versions is a strict total order.
- How validation, status, sync and run relate to each other.

One behaviour is shown by a lemma, not treated as a defect. Saving a
configuration whose root directory is relative, then loading it, joins the
submodules directory onto the root a second time (`RelativeRootDoublesSubmodulesDir`).
The code does this as written.

## Model

| member | source | states |
|---|---|---|
| Errors.Render | factoryai/exceptions.py:31-39 | `str(e)` starts with the message; it is exactly the message iff the details are missing or empty; otherwise the message is followed by "\nDetails: " and the details |
| Errors.FactoryAIError | factoryai/exceptions.py:20-29 | the base error stores message and details as given, and renders as the bare message iff the details are missing or empty |
| Errors.SubmoduleNotFoundError | factoryai/exceptions.py:42-53 | the error is a SubmoduleNotFound (hence a FactoryAI error), its message is "Submodule '<n>' not found or not initialized.", its details are the sync hint, and its text is the two joined |
| Errors.ConfigurationError | factoryai/exceptions.py:56-59 | keeps the caller's message and details unchanged and renders exactly like the base error |
| Errors.ComponentError | factoryai/exceptions.py:62-75 | never carries details, so its text is exactly "Component '<c>' failed: <m>" |
| Errors.ValidationError | factoryai/exceptions.py:78-81 | keeps the caller's message and details unchanged and renders exactly like the base error |
| Errors.BaseCatchesAll | factoryai/exceptions.py:14-81 | with catching defined by walking up the class each kind derives from, a base-class handler catches every kind and a sub-kind handler catches that kind only |
| Strings.JoinWith | factoryai/utils.py:184 | `sep.join(xs)`: its length is the pieces' total plus one separator between neighbours, and it starts with the first piece |
| Strings.SplitSeparator | factoryai/utils.py:216 | a separator between two texts splits exactly there: the pieces of the left text, then those of the right |
| Strings.Split | factoryai/utils.py:216 | Python's `split` on one character: always at least one piece, and no piece holds the separator |
| Strings.JoinSplit | factoryai/utils.py:216 | joining the pieces of a split with the separator gives the original text |
| Strings.SplitJoin | factoryai/utils.py:184 | splitting a join of separator-free pieces gives the pieces back |
| Strings.SplitCovers | factoryai/utils.py:216 | every non-separator character of the text lies in some piece of the split |
| Strings.NatToString | factoryai/core.py:204 | `str(n)` for a natural number is a non-empty string of digits, "0" for zero and otherwise without a leading zero |
| Strings.ParseNatToString | factoryai/utils.py:216 | `int(str(n)) == n` for every natural number |
| Paths.ParsePath | factoryai/config.py:62-65 | `Path(text)` keeps only valid segments and is absolute iff the text starts with '/' |
| Paths.NormaliseSingle | factoryai/config.py:62-65 | a single piece is kept iff it is neither empty nor "." |
| Paths.NormaliseAppend | factoryai/config.py:62-65 | the pieces kept from a concatenation are those kept from each part, in order; with NormaliseSingle this fixes exactly which pieces `Path(text)` keeps |
| Paths.ParsePathSlash | factoryai/config.py:62-65 | text joined with "/" parses to the left side's segments followed by the right side's, absolute iff the left side is absolute or empty |
| Paths.ToString | factoryai/config.py:139-142 | the text of a valid path is never empty; with no segments it is "/" for the root and "." for the relative path |
| Paths.TextSegments | factoryai/config.py:139-142 | `str(p)` is canonical: split on "/" it gives one empty piece for an absolute path's root, then exactly the segments, so there is no doubled, leading or trailing slash |
| Paths.ParseToString | factoryai/config.py:138-175 | parsing the text of a valid path gives the same path back |
| Paths.Join | factoryai/config.py:68-69 | `a / b` is `b` when `b` is absolute, otherwise `a`'s segments followed by `b`'s; validity is preserved |
| Paths.Parent | factoryai/core.py:78 | `.parent` keeps absoluteness and drops the last segment; joining that segment back gives the path; a root is its own parent |
| FileSystems.MakeDirs | factoryai/utils.py:143 | on success the path is a directory, every existing entry is unchanged, and every new entry is an ancestor of the path |
| FileSystems.MakeDirsAncestors | factoryai/utils.py:143 | on a well-formed filesystem the path and every ancestor end up directories |
| FileSystems.MakeDirsWellFormed | factoryai/utils.py:143 | directory creation keeps the filesystem well formed |
| FileSystems.MakeDirsFails | factoryai/utils.py:141-146 | on a well-formed filesystem creation fails iff the path or an ancestor is a file |
| FileSystems.EnsureDirectory | factoryai/utils.py:124-148 | an existing directory is left alone; an existing file, a missing directory without `create`, and a failed creation each raise their own FactoryAIError text; success makes the path and its ancestors directories without changing existing entries; with `create` it fails iff a proper ancestor is a file |
| FileSystems.IsGitRepository | factoryai/utils.py:88-98 | true iff `path/.git` exists and is a directory |
| FileSystems.EnsureGitDirMakesRepository | factoryai/utils.py:88-98 | after `path/.git` is ensured, `path` is a repository |
| FileSystems.EnsureDirectoryKeepsRepository | factoryai/utils.py:124-148 | ensuring any directory never turns a repository into a non-repository |
| Process.RunCommand | factoryai/utils.py:24-72 | an empty argument list, a missing executable and any other launch failure each raise their own text; the call returns iff the child exited and, under `check`, with code 0; output is empty unless captured; a checked non-zero exit is re-wrapped by the generic handler into "Failed to run command: ..." with no details |
| Process.CheckedFailureMessage | factoryai/utils.py:58-72 | the exact text of the re-wrapped error: the exit code, the command joined by spaces, and the stderr |
| Process.CheckGitInstalled | factoryai/utils.py:75-85 | true iff `git --version` exits with code 0 |
| Versions.ParseSegments | factoryai/utils.py:216 | succeeds iff every piece is a digit string, with one value per piece |
| Versions.ParseVersion | factoryai/utils.py:203-218 | succeeds iff every dot-separated piece is a digit string, giving one integer per piece; otherwise a ValidationError naming the input |
| Versions.ParsedVersionCharacters | factoryai/utils.py:215-218 | a parsable version string is non-empty and holds only digits and dots |
| Versions.RejectsNonNumeric | tests/test_utils.py:205-208 | "" and "invalid.version.x" are rejected |
| Versions.FormatParse | tests/test_utils.py:195-203 | parsing the dotted text of a non-empty version gives the version back |
| Versions.LexLess | factoryai/utils.py:234-237 | tuple `<` compared from the front agrees with the first-difference definition: at the first differing index `a` is smaller, or `a` is a proper prefix of `b` |
| Versions.LexIrreflexive | factoryai/utils.py:234-239 | no version is below itself |
| Versions.LexAsymmetric | factoryai/utils.py:234-239 | two versions are never each below the other |
| Versions.LexTransitive | factoryai/utils.py:234-239 | tuple order is transitive |
| Versions.LexTotal | factoryai/utils.py:234-239 | any two versions are equal or one is below the other |
| Versions.PrefixIsLess | tests/test_utils.py:225-228 | a proper prefix is below the longer version, so (1, 2) is below (1, 2, 0) |
| Versions.Compare | factoryai/utils.py:234-239 | -1 iff below, 1 iff above, 0 iff equal |
| Versions.CompareVersions | factoryai/utils.py:221-239 | the first unparsable argument's error propagates; otherwise the result is -1/0/1 by tuple order of the parsed versions |
| Versions.CompareVersionsAntisymmetric | factoryai/utils.py:221-239 | a version compares equal to itself, and swapping the arguments negates the result |
| Versions.CompareExamples | tests/test_utils.py:210-228 | on the test's own strings: "1.2.3" vs "1.2.3" is 0, "1.2.3" vs "2.0.0" is -1, "2.0.0" vs "1.2.3" is 1, "1.2" vs "1.2.0" is -1 |
| Formatting.BulletLines | factoryai/utils.py:184 | one line per item: the bullet, a space, the item |
| Formatting.FormatList | factoryai/utils.py:172-184 | the result is empty iff there are no items |
| Formatting.FormatListLines | factoryai/utils.py:182-184 | when nothing holds a newline, the result's lines are exactly the bulleted items in order |
| Formatting.DefaultBulletLines | tests/test_utils.py:146-154 | with the default bullet (the three characters of utils.py:172), every line is that bullet, a space and the item |
| Formatting.TruncateString | factoryai/utils.py:187-200 | text that fits is unchanged; longer text becomes exactly `max_length` characters, its own prefix followed by the suffix |
| Formatting.TruncateIdempotent | factoryai/utils.py:198-200 | truncating a truncated text changes nothing |
| Config.DefaultComponents | factoryai/config.py:75-94 | exactly the three stock ids, each with its name, its path under src/platfom and its github.com/ruslanmv repository URL, and only factory-debug disabled |
| Config.NewConfig | factoryai/config.py:59-73 | a relative submodules directory is placed under the root and an absolute one kept; a non-empty component map is kept and an empty one replaced by the defaults, so the map is never empty |
| Config.ParseDefaultSubmodulesDir | factoryai/config.py:54 | the default submodules directory is the relative path src/platfom |
| Config.DefaultConfigShape | factoryai/config.py:53-57 | for any root: submodules under root/src/platfom, log level INFO, no log file, the default components |
| Config.DefaultAppAiPath | factoryai/config.py:113-114 | Factory-App-AI lives at root/src/platfom/Factory-App-AI |
| Config.GetComponentPath | factoryai/config.py:96-115 | succeeds iff the id is configured, giving the root joined with the component's path; otherwise a ConfigurationError naming the id |
| Config.IsComponentAvailable | factoryai/config.py:117-130 | true iff the id is configured and its path is an existing directory; never raises |
| Config.ToDict | factoryai/config.py:132-152 | root, submodules dir and log file as their path text, the log file null iff absent, the log level as given, and each component id mapped to a record of that component's name, path, url and enabled flag |
| Config.DecodeComponent | factoryai/config.py:35-38 | a component entry decodes iff name, path and url are present, into a component with exactly those values; enabled defaults to true |
| Config.FromDict | factoryai/config.py:155-175 | fails iff some component lacks a field or root_dir is missing; a bad component raises the TypeError, and otherwise a missing root_dir raises `KeyError('root_dir')`; the root is the parsed root_dir; a given submodules_dir, or else src/platfom, is joined onto the root; a non-empty log_file is parsed, an empty or missing one means none; the log level defaults to INFO; each given component is the decoded entry under the same id, and no components means the defaults |
| Config.Load | factoryai/config.py:191-212 | every failure is a ConfigurationError without details: "Configuration file not found: ", "Invalid JSON in configuration: " or "Failed to load configuration: " followed by the cause; succeeds iff the file parses and `from_dict` succeeds |
| Config.RoundTrip | factoryai/config.py:132-175 | `from_dict(to_dict(c))` reproduces every canonical configuration exactly |
| Config.AbsoluteRootRoundTrip | tests/test_config.py:134-149 | a configuration built on an absolute root survives save and load unchanged |
| Config.RelativeRootDoublesSubmodulesDir | factoryai/config.py:139-171 | on a relative root, loading joins the submodules directory onto the root again, so the loaded configuration differs |
| Config.EmptyComponentsRepopulated | factoryai/config.py:72-73 | a configuration with no components loads back with the three defaults |
| Orchestrator.SyncCommand | factoryai/core.py:81-89 | the sync command is `git submodule update --init --recursive`, with `--force` appended iff forced, run in the root directory |
| Orchestrator.SyncSubmodules | factoryai/core.py:53-97 | git is probed first, then the repository, then the submodules parent is ensured, then the sync command runs; each failure's error is the exact text and nothing later is launched; success iff all four pass; entries are never removed and well-formedness is kept |
| Orchestrator.CheckComponentAvailable | factoryai/core.py:99-108 | true iff the component is configured and its directory exists |
| Orchestrator.GetComponentStatus | factoryai/core.py:110-130 | one entry per configured component, copying name, enabled and url; available iff the path exists (as anything) |
| Orchestrator.StatusVersusAvailability | factoryai/core.py:118-128 | an available component shows as available; a component whose path is a plain file shows as available although it is not |
| Orchestrator.EntryPoint | factoryai/core.py:166-175 | any entry point found exists and is main.py or app.py in the component directory |
| Orchestrator.EntryPointOrder | factoryai/core.py:166-175 | main.py wins when present, app.py only in its absence, and there is none iff neither exists |
| Orchestrator.ComponentCommand | factoryai/core.py:177-180 | the interpreter, the script, then the caller's arguments, in the component directory |
| Orchestrator.LaunchError | factoryai/core.py:182-213 | no error iff the child exits 0; every failure is a ComponentError; a non-zero exit names its code; a missing interpreter or another launch failure gives the raw OS text when interactive and run_command's text when captured |
| Orchestrator.RunComponent | factoryai/core.py:132-213 | unavailable, disabled and no-entry-point each fail with their own error before anything is launched; otherwise exactly one launch of the entry script; returns 0 iff that exits 0; a non-zero exit names its code; a failed launch gives LaunchError's text; every later failure is a ComponentError |
| Orchestrator.RunImpliesStatus | factoryai/core.py:152-160 | a successful run implies the status report shows the component available and enabled |
| Orchestrator.FallbackScriptRuns | factoryai/core.py:167-169 | a component with only app.py launches app.py |
| Orchestrator.MainScriptRuns | factoryai/core.py:165-208 | an available, enabled component whose main.py exits 0 returns 0 after launching main.py once |
| Orchestrator.EndToEnd | factoryai/core.py:132-208 | under the default configuration, Factory-App-AI with main.py exiting 0 runs to 0 |
| Orchestrator.ErrorMessages | factoryai/core.py:230-256 | one message per failed check, each present iff its check failed, in the order of the checks |
| Orchestrator.ValidateInstallation | factoryai/core.py:215-258 | only the git and repository checks clear `valid`; initialised iff some component is enabled and present; the status map is the orchestrator's |
| Orchestrator.ValidatePredictsSync | factoryai/core.py:64-74 | validation is valid iff sync passes both preconditions; when it is not, sync fails having launched only the git probe and changed nothing |
| Orchestrator.Info | factoryai/core.py:260-274 | the version given, the log level, `str` of the root and of the submodules dir (which parse back to the configured paths), and exactly the status map of `get_component_status` |
| Orchestrator.InfoMatchesValidation | factoryai/core.py:273 | `info()` and `validate_installation()` report the same component statuses |

## Left out

- Logging everywhere, `cli.py`, `get_default_config`, `setup_logging` and `save`: output and file writing only, with no decision logic the model needs. `save` writes `to_dict`, which is modelled.
- `validate_path`, `get_python_executable`, `check_command_available`: not part of the modelled core. They depend on permissions, `sys.executable` and `shutil.which`.
- Effects of launched commands: a launch only reports how it ended and never changes the modelled filesystem. Sync's resulting filesystem therefore holds only `ensure_directory`'s change, not the submodule trees `git submodule update` creates or, with `--force`, rewrites. Sync's "entries are never removed" holds under this abstraction only.
- Real processes: a launcher function gives each launch's outcome. The text of an OS error other than "not found" is part of that outcome. An interactive run's missing interpreter is rendered as the `FileNotFoundError` text for `python`.
- The real filesystem: it is a map keyed by paths as spelled. The working directory is fixed, so relative and absolute spellings of one place are different keys. Symbolic links and permission errors are not modelled. The only creation failure modelled is "Not a directory".
- JSON decoding: `load` receives the file already classified as missing, unreadable, invalid JSON, or parsed into a typed record. In the record, None means the key is absent. For `log_file` alone, None also stands for a JSON null, which `from_dict` treats like a missing key.
- A JSON null anywhere except `log_file` is not modelled. In Python, a null `components` or `submodules_dir` makes `from_dict` raise. A null `log_level` is kept as None. A null `enabled` counts as disabled, and a null `name`, `path` or `url` is accepted. Values of the wrong JSON type and unknown keys are not modelled either.
- Dictionary insertion order: component maps are unordered.
- Config.DescribeFailure: the text of the `TypeError` raised by `SubmoduleConfig(**data)` is approximated by a fixed string that does not name the missing argument.
- Paths.ParsePath: pathlib's keeping of exactly two leading slashes is not modelled. Segments are as split, with no further normalisation.
- Versions.ParseVersion: Python's `int()` also accepts surrounding whitespace, a sign, underscores and non-ASCII digits. The model accepts only non-empty runs of ASCII digits, so it rejects some strings Python accepts.
- Formatting.TruncateString: requires `max_length >= len(suffix)`. For a smaller `max_length`, Python's negative slice gives a result longer than `max_length`; that case is not modelled.
- Orchestrator.SyncSubmodules: the generic `except Exception` branch (core.py:96-97) is unreachable in the model, because every error from the helpers it calls is already a FactoryAIError.
- Orchestrator.Info: `__version__` comes from package metadata and is a parameter.

=== FILE: config.dfy ===
/** The configuration record of `factoryai/config.py`: construction-time
    normalisation, component lookup, and the dictionary form it is saved as. */
module Config {
  import opened Wrappers
  import opened Errors
  import Strings
  import opened Paths
  import opened FileSystems

  /** `SubmoduleConfig`: one component descriptor; `path` is relative to the root directory. */
  datatype SubmoduleConfig = SubmoduleConfig(name: string, path: string, url: string, enabled: bool)

  /** `FactoryAIConfig`, keyed by component id. */
  datatype FactoryAIConfig = FactoryAIConfig(
    rootDir: Path,
    submodulesDir: Path,
    logLevel: string,
    logFile: Option<Path>,
    components: map<string, SubmoduleConfig>)

  const DefaultSubmodulesDir: string := "src/platfom"
  const DefaultLogLevel: string := "INFO"

  const AppAiId: string := "factory-app-ai"
  const FeatureId: string := "factory-feature"
  const DebugId: string := "factory-debug"

  /** `_init_default_components`: exactly the three stock components, each in
      a directory of src/platfom named like the component; only Factory-Debug starts disabled. */
  function DefaultComponents(): (m: map<string, SubmoduleConfig>)
    ensures m.Keys == {AppAiId, FeatureId, DebugId}
    ensures |m| == 3
    ensures forall id :: id in m ==> (m[id].enabled <==> id != DebugId)
    ensures m[AppAiId].name == "Factory-App-AI" && m[AppAiId].path == AppAiPath
    ensures m[FeatureId].name == "Factory-Feature" && m[FeatureId].path == "src/platfom/Factory-Feature"
    ensures m[DebugId].name == "Factory-Debug" && m[DebugId].path == "src/platfom/Factory-Debug"
    ensures m[AppAiId].url == "https://github.com/ruslanmv/Factory-App-AI"
    ensures m[FeatureId].url == "https://github.com/ruslanmv/Factory-Feature"
    ensures m[DebugId].url == "https://github.com/ruslanmv/Factory-Debug"
  {
    var m := map[
      AppAiId := SubmoduleConfig("Factory-App-AI", AppAiPath,
                                 "https://github.com/ruslanmv/Factory-App-AI", true),
      FeatureId := SubmoduleConfig("Factory-Feature", "src/platfom/Factory-Feature",
                                   "https://github.com/ruslanmv/Factory-Feature", true),
      DebugId := SubmoduleConfig("Factory-Debug", "src/platfom/Factory-Debug",
                                 "https://github.com/ruslanmv/Factory-Debug", false)
    ];
    assert m.Keys == {AppAiId, FeatureId, DebugId};
    m
  }

  /** `FactoryAIConfig(...)` followed by `__post_init__`: a relative
      submodules directory is placed under the root, and an empty component
      map is replaced by the defaults. */
  function NewConfig(rootDir: Path, submodulesDir: Path, logLevel: string, logFile: Option<Path>,
                     components: map<string, SubmoduleConfig>): (c: FactoryAIConfig)
    ensures c.rootDir == rootDir && c.logLevel == logLevel && c.logFile == logFile
    ensures submodulesDir.absolute ==> c.submodulesDir == submodulesDir
    ensures !submodulesDir.absolute ==>
      c.submodulesDir == Path(rootDir.absolute, rootDir.segments + submodulesDir.segments)
    ensures c.submodulesDir.absolute <==> rootDir.absolute || submodulesDir.absolute
    ensures |components| > 0 ==> c.components == components
    ensures |components| == 0 ==> c.components == DefaultComponents()
    ensures |c.components| > 0
  {
    var sub := if submodulesDir.absolute then submodulesDir else Join(rootDir, submodulesDir);
    var comps := if |components| == 0 then DefaultComponents() else components;
    FactoryAIConfig(rootDir, sub, logLevel, logFile, comps)
  }

  /** `FactoryAIConfig(root_dir=root)` with every other field defaulted. */
  function DefaultConfig(rootDir: Path): FactoryAIConfig {
    NewConfig(rootDir, ParsePath(DefaultSubmodulesDir), DefaultLogLevel, None, map[])
  }

  lemma ParseDefaultSubmodulesDir()
    ensures ParsePath(DefaultSubmodulesDir) == Path(false, ["src", "platfom"])
  {
    var p := Path(false, ["src", "platfom"]);
    assert ValidSegment("src") && ValidSegment("platfom");
    assert ToString(p) == DefaultSubmodulesDir;
    ParseToString(p);
  }

  /** For a root `/test/root` the submodules directory is `/test/root/src/platfom`;
      log level INFO, no log file, the three default components. */
  lemma DefaultConfigShape(rootDir: Path)
    ensures DefaultConfig(rootDir).submodulesDir == Path(rootDir.absolute, rootDir.segments + ["src", "platfom"])
    ensures DefaultConfig(rootDir).logLevel == "INFO" && DefaultConfig(rootDir).logFile.None?
    ensures DefaultConfig(rootDir).components == DefaultComponents()
  {
    ParseDefaultSubmodulesDir();
  }

  /** Where a known component lives: its descriptor path under the root directory. */
  function ComponentPath(c: FactoryAIConfig, id: string): Path
    requires id in c.components
  {
    Join(c.rootDir, ParsePath(c.components[id].path))
  }

  /** `get_component_path(id)`: the component's directory, or a ConfigurationError for an unknown id. */
  function GetComponentPath(c: FactoryAIConfig, id: string): (r: Result<Path>)
    ensures r.Ok? <==> id in c.components
    ensures r.Ok? ==> r.value == Join(c.rootDir, ParsePath(c.components[id].path))
    ensures r.Err? ==> r.error == ConfigurationError("Component '" + id + "' not found in configuration.", None)
  {
    if id !in c.components then Err(ConfigurationError("Component '" + id + "' not found in configuration.", None))
    else Ok(ComponentPath(c, id))
  }

  const AppAiPath: string := "src/platfom/Factory-App-AI"

  lemma ParseAppAiPath()
    ensures ParsePath(AppAiPath) == Path(false, ["src", "platfom", "Factory-App-AI"])
  {
    var p := Path(false, ["src", "platfom", "Factory-App-AI"]);
    AppAiSegments();
    AppAiText();
    ParseToString(p);
  }

  lemma AppAiSegments()
    ensures ValidPath(Path(false, ["src", "platfom", "Factory-App-AI"]))
  {
    assert ValidSegment("src") && ValidSegment("platfom") && ValidSegment("Factory-App-AI");
  }

  lemma AppAiText()
    ensures ToString(Path(false, ["src", "platfom", "Factory-App-AI"])) == AppAiPath
  {
    var segs := ["src", "platfom", "Factory-App-AI"];
    RelativeText(Path(false, segs));
    assert segs[1..][1..] == ["Factory-App-AI"];
    assert Strings.JoinWith(segs[1..], "/") == "platfom/Factory-App-AI";
    assert Strings.JoinWith(segs, "/") == AppAiPath;
  }

  /** The default factory-app-ai component resolves to `<root>/src/platfom/Factory-App-AI`. */
  lemma DefaultAppAiPath(rootDir: Path)
    ensures GetComponentPath(DefaultConfig(rootDir), AppAiId)
         == Ok(Path(rootDir.absolute, rootDir.segments + ["src", "platfom", "Factory-App-AI"]))
  {
    DefaultConfigShape(rootDir);
    assert DefaultComponents()[AppAiId].path == AppAiPath;
    ParseAppAiPath();
  }

  /** `is_component_available(id)`: never raises; true exactly when the id is
      known and its directory exists as a directory. */
  function IsComponentAvailable(c: FactoryAIConfig, fs: FileSystem, id: string): (r: bool)
    ensures id !in c.components ==> !r
    ensures r <==> GetComponentPath(c, id).Ok? && IsDir(fs, GetComponentPath(c, id).value)
  {
    id in c.components && IsDir(fs, ComponentPath(c, id))
  }

  /** A component's entry in the saved dictionary; None means the key is absent. */
  datatype ComponentRecord = ComponentRecord(name: Option<string>, path: Option<string>, url: Option<string>,
                                             enabled: Option<bool>)

  /** The saved dictionary; None means the key is absent, and for `log_file`
      alone it also stands for a JSON null, which `from_dict` treats the same way. */
  datatype ConfigRecord = ConfigRecord(
    rootDir: Option<string>,
    submodulesDir: Option<string>,
    logLevel: Option<string>,
    logFile: Option<string>,
    components: Option<map<string, ComponentRecord>>)

  function ComponentToRecord(s: SubmoduleConfig): ComponentRecord {
    ComponentRecord(Some(s.name), Some(s.path), Some(s.url), Some(s.enabled))
  }

  /** `to_dict()`: every field as text, the log file as null when absent. */
  function ToDict(c: FactoryAIConfig): (r: ConfigRecord)
    ensures r.rootDir == Some(ToString(c.rootDir)) && r.submodulesDir == Some(ToString(c.submodulesDir))
    ensures r.logLevel == Some(c.logLevel)
    ensures r.logFile.Some? <==> c.logFile.Some?
    ensures c.logFile.Some? ==> r.logFile == Some(ToString(c.logFile.value))
    ensures r.components.Some? && r.components.value.Keys == c.components.Keys
    ensures forall id :: id in c.components ==> r.components.value[id] == ComponentToRecord(c.components[id])
  {
    ConfigRecord(
      Some(ToString(c.rootDir)),
      Some(ToString(c.submodulesDir)),
      Some(c.logLevel),
      if c.logFile.Some? then Some(ToString(c.logFile.value)) else None,
      Some(map id | id in c.components :: ComponentToRecord(c.components[id])))
  }

  /** `SubmoduleConfig(**data)`: name, path and url are required; enabled defaults to true. */
  function DecodeComponent(r: ComponentRecord): (s: Option<SubmoduleConfig>)
    ensures s.Some? <==> r.name.Some? && r.path.Some? && r.url.Some?
    ensures s.Some? ==> s.value == SubmoduleConfig(r.name.value, r.path.value, r.url.value, r.enabled.GetOr(true))
  {
    if r.name.Some? && r.path.Some? && r.url.Some? then
      Some(SubmoduleConfig(r.name.value, r.path.value, r.url.value, r.enabled.GetOr(true)))
    else None
  }

  /** The Python exceptions `from_dict` lets escape. */
  datatype DecodeFailure =
    | MissingRootDir             // KeyError on "root_dir"
    | MissingComponentField      // TypeError from `SubmoduleConfig(**data)`

  datatype Decoded = Built(config: FactoryAIConfig) | Raised(failure: DecodeFailure)

  /** Some component entry lacks a required field. */
  predicate HasBadComponent(rec: ConfigRecord) {
    rec.components.Some? && exists id :: id in rec.components.value && DecodeComponent(rec.components.value[id]).None?
  }

  /** `from_dict(data)`: components are decoded first, then root_dir is read;
      missing optional keys take their defaults and construction normalises the result. */
  function FromDict(rec: ConfigRecord): (r: Decoded)
    ensures r.Raised? <==> HasBadComponent(rec) || rec.rootDir.None?
    ensures HasBadComponent(rec) ==> r == Raised(MissingComponentField)
    ensures !HasBadComponent(rec) && rec.rootDir.None? ==> r == Raised(MissingRootDir)
    ensures r.Built? ==> r.config.rootDir == ParsePath(rec.rootDir.value)
    ensures r.Built? ==> r.config.logLevel == rec.logLevel.GetOr(DefaultLogLevel)
    ensures r.Built? ==> (r.config.logFile.None? <==> rec.logFile.None? || rec.logFile.value == "")
    ensures r.Built? && rec.submodulesDir.None? ==>
      r.config.submodulesDir == Join(r.config.rootDir, Path(false, ["src", "platfom"]))
    ensures r.Built? && rec.submodulesDir.Some? ==>
      r.config.submodulesDir == Join(r.config.rootDir, ParsePath(rec.submodulesDir.value))
    ensures r.Built? && rec.logFile.Some? && rec.logFile.value != "" ==>
      r.config.logFile == Some(ParsePath(rec.logFile.value))
    ensures r.Built? && (rec.components.None? || |rec.components.value| == 0) ==>
      r.config.components == DefaultComponents()
    ensures r.Built? && rec.components.Some? && |rec.components.value| > 0 ==>
      r.config.components.Keys == rec.components.value.Keys
    ensures r.Built? && rec.components.Some? && |rec.components.value| > 0 ==>
      forall id :: id in rec.components.value ==> DecodeComponent(rec.components.value[id]) == Some(r.config.components[id])
  {
    ParseDefaultSubmodulesDir();
    var comps := rec.components.GetOr(map[]);
    if HasBadComponent(rec) then Raised(MissingComponentField)
    else if rec.rootDir.None? then Raised(MissingRootDir)
    else
      var decoded := map id | id in comps :: DecodeComponent(comps[id]).value;
      assert decoded.Keys == comps.Keys;
      assert |decoded| == |comps| by {
        assert |decoded| == |decoded.Keys| && |comps| == |comps.Keys|;
      }
      Built(NewConfig(
        ParsePath(rec.rootDir.value),
        ParsePath(rec.submodulesDir.GetOr(DefaultSubmodulesDir)),
        rec.logLevel.GetOr(DefaultLogLevel),
        if rec.logFile.Some? && rec.logFile.value != "" then Some(ParsePath(rec.logFile.value)) else None,
        decoded))
  }

  /** The text of an exception escaping `from_dict`. */
  function DescribeFailure(f: DecodeFailure): string {
    match f
    case MissingRootDir => "'root_dir'"
    case MissingComponentField => "SubmoduleConfig.__init__() missing required positional argument"
  }

  /** The configuration file as `load` finds it. */
  datatype ConfigFile = Missing | InvalidJson(reason: string) | Unreadable(reason: string) | Parsed(record: ConfigRecord)

  /** `load(path)`: every failure, whatever raised it, surfaces as a ConfigurationError. */
  function Load(path: Path, file: ConfigFile): (r: Result<FactoryAIConfig>)
    ensures r.Err? ==> r.error.kind == Configuration && r.error.details.None?
    ensures r.Ok? <==> file.Parsed? && FromDict(file.record).Built?
    ensures r.Ok? ==> r.value == FromDict(file.record).config
    ensures file.Missing? ==> r.error.message == "Configuration file not found: " + ToString(path)
    ensures file.InvalidJson? ==> r.error.message == "Invalid JSON in configuration: " + file.reason
    ensures file.Unreadable? ==> r.error.message == "Failed to load configuration: " + file.reason
    ensures file.Parsed? && FromDict(file.record).Raised? ==>
      r.error.message == "Failed to load configuration: " + DescribeFailure(FromDict(file.record).failure)
    ensures file.Parsed? && file.record.rootDir.None? ==> r.Err?
  {
    match file
    case Missing => Err(ConfigurationError("Configuration file not found: " + ToString(path), None))
    case InvalidJson(reason) => Err(ConfigurationError("Invalid JSON in configuration: " + reason, None))
    case Unreadable(reason) => Err(ConfigurationError("Failed to load configuration: " + reason, None))
    case Parsed(rec) =>
      match FromDict(rec)
      case Built(c) => Ok(c)
      case Raised(f) => Err(ConfigurationError("Failed to load configuration: " + DescribeFailure(f), None))
  }

  /** A component written by `to_dict` decodes to itself. */
  lemma DecodeRecord(s: SubmoduleConfig)
    ensures DecodeComponent(ComponentToRecord(s)) == Some(s)
  {
  }

  /** Every component record `to_dict` writes decodes to the component it came from. */
  lemma RecordDecodes(c: FactoryAIConfig)
    ensures !HasBadComponent(ToDict(c))
    ensures forall id :: id in c.components ==>
      DecodeComponent(ToDict(c).components.value[id]) == Some(c.components[id])
  {
    forall id | id in c.components ensures DecodeComponent(ToDict(c).components.value[id]) == Some(c.components[id]) {
      DecodeRecord(c.components[id]);
    }
  }

  /** Loading what `to_dict` wrote gives back a non-empty component map unchanged. */
  lemma LoadedComponents(c: FactoryAIConfig)
    requires |c.components| > 0
    ensures FromDict(ToDict(c)).Built? ==> FromDict(ToDict(c)).config.components == c.components
  {
    var rec := ToDict(c);
    RecordDecodes(c);
    if FromDict(rec).Built? {
      var d := FromDict(rec).config;
      assert d.components.Keys == c.components.Keys;
      forall id | id in c.components ensures d.components[id] == c.components[id] {
        assert DecodeComponent(rec.components.value[id]) == Some(d.components[id]);
      }
    }
  }

  /** The configurations a save-and-load cycle reproduces: valid paths, an
      absolute submodules directory, and at least one component. */
  predicate Canonical(c: FactoryAIConfig) {
    && ValidPath(c.rootDir)
    && ValidPath(c.submodulesDir)
    && c.submodulesDir.absolute
    && (c.logFile.Some? ==> ValidPath(c.logFile.value))
    && |c.components| > 0
  }

  /** `from_dict(to_dict(c))` reproduces every field, a missing log file included. */
  lemma RoundTrip(c: FactoryAIConfig)
    requires Canonical(c)
    ensures FromDict(ToDict(c)) == Built(c)
  {
    var rec := ToDict(c);
    ParseToString(c.rootDir);
    ParseToString(c.submodulesDir);
    if c.logFile.Some? {
      ParseToString(c.logFile.value);
    }
    RecordDecodes(c);
    var r := FromDict(rec);
    assert r.Built?;
    var d := r.config;
    assert d.rootDir == c.rootDir;
    assert d.submodulesDir == c.submodulesDir;
    assert d.logLevel == c.logLevel;
    assert d.logFile == c.logFile;
    LoadedComponents(c);
    assert d == c;
  }

  /** A configuration built on an absolute root survives a save-and-load cycle. */
  lemma AbsoluteRootRoundTrip(rootDir: Path, submodulesDir: Path, logLevel: string, logFile: Option<Path>,
                              components: map<string, SubmoduleConfig>)
    requires rootDir.absolute && ValidPath(rootDir) && ValidPath(submodulesDir)
    requires logFile.Some? ==> ValidPath(logFile.value)
    ensures var c := NewConfig(rootDir, submodulesDir, logLevel, logFile, components);
      FromDict(ToDict(c)) == Built(c)
  {
    RoundTrip(NewConfig(rootDir, submodulesDir, logLevel, logFile, components));
  }

  /** On a relative root the relative submodules directory is joined onto the root a second time on load. */
  lemma RelativeRootDoublesSubmodulesDir(rootDir: Path, submodulesDir: Path)
    requires !rootDir.absolute && !submodulesDir.absolute && |rootDir.segments| > 0
    requires ValidPath(rootDir) && ValidPath(submodulesDir)
    ensures var c := NewConfig(rootDir, submodulesDir, DefaultLogLevel, None, map[]);
      && FromDict(ToDict(c)).Built?
      && FromDict(ToDict(c)).config.submodulesDir
         == Path(false, rootDir.segments + rootDir.segments + submodulesDir.segments)
      && FromDict(ToDict(c)).config != c
  {
    var c := NewConfig(rootDir, submodulesDir, DefaultLogLevel, None, map[]);
    ParseToString(c.rootDir);
    ParseToString(c.submodulesDir);
    var loaded := FromDict(ToDict(c)).config;
    assert |loaded.submodulesDir.segments| > |c.submodulesDir.segments|;
  }

  /** A configuration whose component map was emptied comes back with the three defaults. */
  lemma EmptyComponentsRepopulated(c: FactoryAIConfig)
    requires |c.components| == 0
    ensures FromDict(ToDict(c)).Built?
    ensures FromDict(ToDict(c)).config.components == DefaultComponents()
  {
  }
}

=== FILE: errors.dfy ===
/** The error taxonomy of FactoryAI: one base kind carrying a message and
    optional details, and four sub-kinds, each deriving directly from the base. */
module Errors {
  import opened Wrappers

  /** The exception classes, by name. */
  datatype Kind = FactoryAI | SubmoduleNotFound | Configuration | Component | Validation

  /** The class each exception class derives from: the four sub-kinds derive
      directly from the base, which derives from no FactoryAI class. */
  function SuperKind(k: Kind): Option<Kind> {
    if k == FactoryAI then None else Some(FactoryAI)
  }

  /** How far a kind sits below the base class. */
  function Depth(k: Kind): nat {
    if k == FactoryAI then 0 else 1
  }

  /** `except handler:` catches an error of kind `k`: `k` is `handler` or derives from it. */
  predicate IsA(k: Kind, handler: Kind)
    decreases Depth(k)
  {
    k == handler || (SuperKind(k).Some? && IsA(SuperKind(k).value, handler))
  }

  /** A raised error: its class, its `message` and its `details` attributes. */
  datatype Error = Error(kind: Kind, message: string, details: Option<string>)

  /** The outcome of an operation that returns a value or raises. */
  datatype Result<+T> = Ok(value: T) | Err(error: Error) {
    predicate IsFailure() {
      Err?
    }

    function PropagateFailure<U>(): Result<U>
      requires Err?
    {
      Err(error)
    }

    function Extract(): T
      requires Ok?
    {
      value
    }
  }

  /** The outcome of an operation that returns nothing or raises. */
  datatype Outcome = Pass | Fail(error: Error)

  const DetailsSeparator: string := "\nDetails: "

  /** Python's truthiness of an optional string: present and non-empty. */
  predicate HasDetails(e: Error) {
    e.details.Some? && e.details.value != ""
  }

  /** `str(error)`: the message, followed by the details on their own line when there are any. */
  function Render(e: Error): (s: string)
    ensures |s| >= |e.message| && s[..|e.message|] == e.message
    ensures s == e.message <==> !HasDetails(e)
    ensures HasDetails(e) ==> s[|e.message|..] == DetailsSeparator + e.details.value
  {
    if HasDetails(e) then e.message + DetailsSeparator + e.details.value else e.message
  }

  /** `FactoryAIError(message, details)`: both attributes stored as given. */
  function FactoryAIError(message: string, details: Option<string>): (e: Error)
    ensures e.kind == FactoryAI && e.message == message && e.details == details
    ensures Render(e) == message <==> details.None? || details.value == ""
  {
    Error(FactoryAI, message, details)
  }

  const SyncHint: string := "Run 'factoryai sync' or 'make sync' to initialize submodules."

  /** `SubmoduleNotFoundError(name)`: a fixed message naming the submodule, and the sync hint as details. */
  function SubmoduleNotFoundError(name: string): (e: Error)
    ensures e.kind == SubmoduleNotFound && IsA(e.kind, FactoryAI)
    ensures e.message == "Submodule '" + name + "' not found or not initialized." && e.details == Some(SyncHint)
    ensures Render(e) == "Submodule '" + name + "' not found or not initialized." + DetailsSeparator + SyncHint
  {
    Error(SubmoduleNotFound, "Submodule '" + name + "' not found or not initialized.", Some(SyncHint))
  }

  /** `ConfigurationError(message, details)`: the caller's text, unchanged. */
  function ConfigurationError(message: string, details: Option<string>): (e: Error)
    ensures e.kind == Configuration && IsA(e.kind, FactoryAI)
    ensures e.message == message && e.details == details
    ensures Render(e) == Render(FactoryAIError(message, details))
  {
    Error(Configuration, message, details)
  }

  /** `ComponentError(component, message)`: names the component; never carries details. */
  function ComponentError(component: string, message: string): (e: Error)
    ensures e.kind == Component && IsA(e.kind, FactoryAI)
    ensures e.details.None?
    ensures Render(e) == e.message == "Component '" + component + "' failed: " + message
  {
    Error(Component, "Component '" + component + "' failed: " + message, None)
  }

  /** `ValidationError(message, details)`: the caller's text, unchanged. */
  function ValidationError(message: string, details: Option<string>): (e: Error)
    ensures e.kind == Validation && IsA(e.kind, FactoryAI)
    ensures e.message == message && e.details == details
    ensures Render(e) == Render(FactoryAIError(message, details))
  {
    Error(Validation, message, details)
  }

  /** A handler for the base kind catches every error; a handler for a
      sub-kind catches that sub-kind only, since no sub-kind derives from another. */
  lemma {:induction false} BaseCatchesAll(e: Error, handler: Kind)
    ensures IsA(e.kind, FactoryAI)
    ensures handler != FactoryAI ==> (IsA(e.kind, handler) <==> e.kind == handler)
  {
    if e.kind != FactoryAI {
      assert SuperKind(e.kind) == Some(FactoryAI);
      assert IsA(FactoryAI, FactoryAI);
      if handler != FactoryAI && handler != e.kind {
        assert !IsA(FactoryAI, handler);
      }
    }
  }
}

=== FILE: filesystem.dfy ===
/** The filesystem helpers of `factoryai/utils.py` over an abstract
    filesystem: a map from path to file or directory. */
module FileSystems {
  import opened Wrappers
  import opened Errors
  import opened Paths

  datatype Node = File | Dir

  /** The entries that exist, keyed by the path the program names them by. */
  type FileSystem = map<Path, Node>

  /** `p.exists() and p.is_dir()`. */
  predicate IsDir(fs: FileSystem, p: Path) {
    p in fs && fs[p] == Dir
  }

  /** A real filesystem: every entry other than a root lies inside an existing directory. */
  ghost predicate WellFormed(fs: FileSystem) {
    forall q {:trigger Parent(q)} :: q in fs && |q.segments| > 0 ==> IsDir(fs, Parent(q))
  }

  /** The ancestor of `p` made of its first `k` segments; `Prefix(p, |p.segments|)` is `p`. */
  function Prefix(p: Path, k: nat): Path
    requires k <= |p.segments|
  {
    Path(p.absolute, p.segments[..k])
  }

  /** In a well-formed filesystem every proper ancestor of an entry is a directory. */
  lemma {:induction false} AncestorsOfEntry(fs: FileSystem, q: Path)
    ensures WellFormed(fs) && q in fs ==> forall k :: 0 <= k < |q.segments| ==> IsDir(fs, Prefix(q, k))
    decreases |q.segments|
  {
    if WellFormed(fs) && q in fs && |q.segments| > 0 {
      var n := |q.segments|;
      var up := Parent(q);
      AncestorsOfEntry(fs, up);
      assert Prefix(q, n - 1) == up;
      forall k | 0 <= k < n
        ensures IsDir(fs, Prefix(q, k))
      {
        if k < n - 1 {
          assert Prefix(up, k) == Prefix(q, k);
        }
      }
    }
  }

  /** `p.mkdir(parents=True, exist_ok=True)`: `p` and each missing ancestor
      becomes a directory; fails (None) when `p` or an ancestor is a file. */
  function MakeDirs(fs: FileSystem, p: Path): (r: Option<FileSystem>)
    ensures r.Some? ==> IsDir(r.value, p)
    ensures r.Some? ==> forall q :: q in fs ==> q in r.value && r.value[q] == fs[q]
    ensures r.Some? ==> forall q :: q in r.value && q !in fs ==> exists k :: 0 <= k <= |p.segments| && q == Prefix(p, k)
    decreases |p.segments|
  {
    if p in fs then
      if fs[p] == Dir then Some(fs) else None
    else if |p.segments| == 0 then
      assert Prefix(p, 0) == p;
      Some(fs[p := Dir])
    else
      var up := Parent(p);
      assert Prefix(p, |p.segments|) == p;
      assert forall k :: 0 <= k <= |up.segments| ==> Prefix(up, k) == Prefix(p, k);
      match MakeDirs(fs, up)
      case None => None
      case Some(m) => Some(m[p := Dir])
  }

  /** On a well-formed filesystem `MakeDirs` leaves `p` and every ancestor of it a directory. */
  lemma {:induction false} MakeDirsAncestors(fs: FileSystem, p: Path)
    requires WellFormed(fs)
    requires MakeDirs(fs, p).Some?
    ensures forall k :: 0 <= k <= |p.segments| ==> IsDir(MakeDirs(fs, p).value, Prefix(p, k))
    decreases |p.segments|
  {
    var n := |p.segments|;
    assert Prefix(p, n) == p;
    if p in fs {
      AncestorsOfEntry(fs, p);
    } else if n > 0 {
      var up := Parent(p);
      MakeDirsAncestors(fs, up);
      AddDirKeepsAncestors(MakeDirs(fs, up).value, p);
    }
  }

  /** Adding `p` as a directory below an existing chain of directories completes the chain. */
  lemma AddDirKeepsAncestors(m: FileSystem, p: Path)
    requires |p.segments| > 0
    requires forall k :: 0 <= k <= |Parent(p).segments| ==> IsDir(m, Prefix(Parent(p), k))
    ensures forall k :: 0 <= k <= |p.segments| ==> IsDir(m[p := Dir], Prefix(p, k))
  {
    var n := |p.segments|;
    var up := Parent(p);
    assert Prefix(p, n) == p;
    forall k | 0 <= k < n
      ensures IsDir(m[p := Dir], Prefix(p, k))
    {
      assert Prefix(up, k) == Prefix(p, k);
    }
  }

  /** On a well-formed filesystem `MakeDirs` keeps it well-formed. */
  lemma {:induction false} MakeDirsWellFormed(fs: FileSystem, p: Path)
    requires WellFormed(fs)
    requires MakeDirs(fs, p).Some?
    ensures WellFormed(MakeDirs(fs, p).value)
    decreases |p.segments|
  {
    var n := |p.segments|;
    if p !in fs && n > 0 {
      var up := Parent(p);
      assert Prefix(up, n - 1) == up;
      MakeDirsWellFormed(fs, up);
      MakeDirsAncestors(fs, up);
      var m := MakeDirs(fs, up).value;
      assert p !in m;
      var m' := m[p := Dir];
      assert MakeDirs(fs, p).value == m';
      forall q | q in m' && |q.segments| > 0
        ensures IsDir(m', Parent(q))
      {
        if q != p {
          assert IsDir(m, Parent(q));
        }
      }
    }
  }

  /** On a well-formed filesystem `MakeDirs` fails exactly when `p` or one of its ancestors is a file. */
  lemma {:induction false} MakeDirsFails(fs: FileSystem, p: Path)
    requires WellFormed(fs)
    ensures MakeDirs(fs, p).None? <==> exists k :: 0 <= k <= |p.segments| && Prefix(p, k) in fs && fs[Prefix(p, k)] == File
    decreases |p.segments|
  {
    var n := |p.segments|;
    assert Prefix(p, n) == p;
    if p in fs {
      AncestorsOfEntry(fs, p);
    } else if n == 0 {
    } else {
      var up := Parent(p);
      assert Prefix(p, n - 1) == up;
      assert forall k :: 0 <= k <= n - 1 ==> Prefix(up, k) == Prefix(p, k);
      MakeDirsFails(fs, up);
    }
  }

  const NotADirectoryText: string := "[Errno 20] Not a directory: '"

  /** `ensure_directory(path, create)`: succeeds with the filesystem afterwards, or raises. */
  function EnsureDirectory(fs: FileSystem, p: Path, create: bool): (r: Result<FileSystem>)
    ensures IsDir(fs, p) ==> r == Ok(fs)
    ensures p in fs && fs[p] == File ==> r == Err(FactoryAIError("Path exists but is not a directory: " + ToString(p), None))
    ensures p !in fs && !create ==> r == Err(FactoryAIError("Directory does not exist: " + ToString(p), None))
    ensures p !in fs && create && r.Err? ==>
      r.error == FactoryAIError("Failed to create directory " + ToString(p) + ": " + NotADirectoryText + ToString(p) + "'", None)
    ensures r.Err? ==> r.error.kind == FactoryAI
    ensures r.Ok? ==> IsDir(r.value, p)
    ensures r.Ok? ==> forall q :: q in fs ==> q in r.value && r.value[q] == fs[q]
    ensures r.Ok? ==> forall q :: q in r.value && q !in fs ==> exists k :: 0 <= k <= |p.segments| && q == Prefix(p, k)
    ensures r.Ok? && WellFormed(fs) ==> WellFormed(r.value)
    ensures r.Ok? && WellFormed(fs) ==> forall k :: 0 <= k <= |p.segments| ==> IsDir(r.value, Prefix(p, k))
    ensures WellFormed(fs) && p !in fs && create ==>
      (r.Err? <==> exists k :: 0 <= k < |p.segments| && Prefix(p, k) in fs && fs[Prefix(p, k)] == File)
  {
    if p in fs then
      AncestorsOfEntry(fs, p);
      assert Prefix(p, |p.segments|) == p;
      if fs[p] == Dir then Ok(fs)
      else Err(FactoryAIError("Path exists but is not a directory: " + ToString(p), None))
    else if create then
      assert Prefix(p, |p.segments|) == p;
      assert WellFormed(fs) ==> MakeDirs(fs, p).Some? ==> WellFormed(MakeDirs(fs, p).value) by {
        if WellFormed(fs) && MakeDirs(fs, p).Some? {
          MakeDirsWellFormed(fs, p);
        }
      }
      assert WellFormed(fs) ==> MakeDirs(fs, p).Some? ==>
        forall k :: 0 <= k <= |p.segments| ==> IsDir(MakeDirs(fs, p).value, Prefix(p, k)) by {
        if WellFormed(fs) && MakeDirs(fs, p).Some? {
          MakeDirsAncestors(fs, p);
        }
      }
      assert WellFormed(fs) ==> (MakeDirs(fs, p).None? <==>
        exists k :: 0 <= k <= |p.segments| && Prefix(p, k) in fs && fs[Prefix(p, k)] == File) by {
        if WellFormed(fs) {
          MakeDirsFails(fs, p);
        }
      }
      match MakeDirs(fs, p)
      case Some(fs') => Ok(fs')
      case None =>
        Err(FactoryAIError("Failed to create directory " + ToString(p) + ": " + NotADirectoryText + ToString(p) + "'", None))
    else
      Err(FactoryAIError("Directory does not exist: " + ToString(p), None))
  }

  const GitDirName: string := ".git"

  /** `is_git_repository(path)`: `path / ".git"` exists and is a directory. */
  function IsGitRepository(fs: FileSystem, p: Path): (r: bool)
    ensures r <==> IsDir(fs, Path(p.absolute, p.segments + [GitDirName]))
  {
    assert ValidSegment(GitDirName);
    ParseSegment(GitDirName);
    IsDir(fs, Child(p, GitDirName))
  }

  /** Creating `path/.git` makes `path` a repository. */
  lemma EnsureGitDirMakesRepository(fs: FileSystem, p: Path, create: bool)
    requires EnsureDirectory(fs, Child(p, GitDirName), create).Ok?
    ensures IsGitRepository(EnsureDirectory(fs, Child(p, GitDirName), create).value, p)
  {
  }

  /** Ensuring a directory never removes one, so a repository stays a repository. */
  lemma EnsureDirectoryKeepsRepository(fs: FileSystem, d: Path, create: bool, p: Path)
    requires IsGitRepository(fs, p)
    requires EnsureDirectory(fs, d, create).Ok?
    ensures IsGitRepository(EnsureDirectory(fs, d, create).value, p)
  {
  }
}

=== FILE: formatting.dfy ===
/** `format_list` and `truncate_string` of `factoryai/utils.py`. */
module Formatting {
  import opened Strings

  /** The default bullet as the source spells it: the three characters U+00E2
      U+20AC U+00A2, which are the UTF-8 bytes of U+2022 read as cp1252.
      The default is that three-character string, not a single bullet. */
  const DefaultBullet: string := "\U{00E2}\U{20AC}\U{00A2}"

  /** The line shown for each item: the bullet, a space, the item. */
  function BulletLines(items: seq<string>, bullet: string): (lines: seq<string>)
    ensures |lines| == |items|
    ensures forall i :: 0 <= i < |items| ==> lines[i] == bullet + " " + items[i]
  {
    seq(|items|, i requires 0 <= i < |items| => bullet + " " + items[i])
  }

  /** `format_list(items, bullet)`: "" for no items, else one bulleted line per item joined by newlines. */
  function FormatList(items: seq<string>, bullet: string): (r: string)
    ensures r == "" <==> |items| == 0
  {
    if |items| == 0 then ""
    else
      var lines := BulletLines(items, bullet);
      JoinFirst(lines, "\n");
      JoinWith(lines, "\n")
  }

  /** When neither the bullet nor any item holds a newline, the lines of the
      result are exactly the bulleted items, in order. */
  lemma FormatListLines(items: seq<string>, bullet: string)
    requires |items| > 0
    requires '\n' !in bullet
    requires forall i :: 0 <= i < |items| ==> '\n' !in items[i]
    ensures Split(FormatList(items, bullet), '\n') == BulletLines(items, bullet)
  {
    var lines := BulletLines(items, bullet);
    forall i | 0 <= i < |lines|
      ensures '\n' !in lines[i]
    {
      assert lines[i] == bullet + " " + items[i];
    }
    SplitJoin(lines, '\n');
  }

  /** With the default bullet, each line of the result is that three-character
      bullet, a space, and the item. */
  lemma DefaultBulletLines(items: seq<string>)
    requires |items| > 0
    requires forall i :: 0 <= i < |items| ==> '\n' !in items[i]
    ensures |Split(FormatList(items, DefaultBullet), '\n')| == |items|
    ensures forall i :: 0 <= i < |items| ==>
      Split(FormatList(items, DefaultBullet), '\n')[i] == "\U{00E2}\U{20AC}\U{00A2} " + items[i]
  {
    assert '\n' !in DefaultBullet by {
      assert forall k :: 0 <= k < |DefaultBullet| ==> DefaultBullet[k] != '\n';
    }
    FormatListLines(items, DefaultBullet);
  }

  /** `truncate_string(text, max_length, suffix)` for `max_length >= len(suffix)`:
      the text itself when it fits, else its first characters and the suffix,
      `max_length` characters in all. */
  function TruncateString(text: string, maxLength: nat, suffix: string): (r: string)
    requires maxLength >= |suffix|
    ensures |text| <= maxLength ==> r == text
    ensures |text| > maxLength ==> |r| == maxLength
    ensures |text| > maxLength ==> r[..maxLength - |suffix|] == text[..maxLength - |suffix|]
    ensures |text| > maxLength ==> r[maxLength - |suffix|..] == suffix
  {
    if |text| <= maxLength then text
    else text[..maxLength - |suffix|] + suffix
  }

  /** Truncating twice is truncating once. */
  lemma TruncateIdempotent(text: string, maxLength: nat, suffix: string)
    requires maxLength >= |suffix|
    ensures TruncateString(TruncateString(text, maxLength, suffix), maxLength, suffix)
         == TruncateString(text, maxLength, suffix)
  {
  }
}

=== FILE: orchestrator.dfy ===
/** `FactoryAIOrchestrator` of `factoryai/core.py`: synchronising the
    submodules, reporting component status, running a component, and
    validating the installation, over an abstract filesystem and launcher. */
module Orchestrator {
  import opened Wrappers
  import opened Strings
  import opened Errors
  import opened Paths
  import opened FileSystems
  import opened Process
  import opened Config

  /** `git submodule update --init --recursive`, with `--force` appended
      exactly when forced, run in the root directory. */
  function SyncCommand(c: FactoryAIConfig, force: bool): (inv: Invocation)
    ensures |inv.argv| == if force then 6 else 5
    ensures inv.argv[..5] == ["git", "submodule", "update", "--init", "--recursive"]
    ensures force <==> "--force" in inv.argv
    ensures inv.cwd == Some(c.rootDir)
  {
    var argv := ["git", "submodule", "update", "--init", "--recursive"] + (if force then ["--force"] else []);
    assert !force ==> argv == ["git", "submodule", "update", "--init", "--recursive"];
    assert force ==> argv[5] == "--force";
    Invocation(argv, Some(c.rootDir))
  }

  const GitMissingHint: string := "Please install Git to use FactoryAI."
  const CloneHint: string := "Please clone the FactoryAI repository properly."

  /** What `sync_submodules` leaves behind: how it ended, the filesystem after
      the orchestrator's own changes (launched commands do not change the
      modelled filesystem), and the commands it launched. */
  datatype SyncResult = SyncResult(outcome: Outcome, fs: FileSystem, launched: seq<Invocation>)

  /** Both preconditions of a sync: git answers its version probe and the root holds a `.git` directory. */
  predicate SyncPreconditions(c: FactoryAIConfig, fs: FileSystem, launcher: Launcher) {
    CheckGitInstalled(launcher) && IsGitRepository(fs, c.rootDir)
  }

  /** `sync_submodules(force)`: checks git, then the repository, then makes
      sure the submodules directory's parent exists, then runs the sync
      command with `check=True`; every error propagates unchanged. */
  function SyncSubmodules(c: FactoryAIConfig, fs: FileSystem, launcher: Launcher, force: bool): (r: SyncResult)
    ensures |r.launched| >= 1 && r.launched[0] == GitVersion
    ensures !CheckGitInstalled(launcher) ==>
      r == SyncResult(Fail(FactoryAIError("Git is not installed", Some(GitMissingHint))), fs, [GitVersion])
    ensures CheckGitInstalled(launcher) && !IsGitRepository(fs, c.rootDir) ==>
      r == SyncResult(Fail(FactoryAIError("Not a git repository: " + ToString(c.rootDir), Some(CloneHint))), fs, [GitVersion])
    ensures SyncPreconditions(c, fs, launcher) && EnsureDirectory(fs, Parent(c.submodulesDir), true).Err? ==>
      r == SyncResult(Fail(EnsureDirectory(fs, Parent(c.submodulesDir), true).error), fs, [GitVersion])
    ensures |r.launched| == 2 <==>
      SyncPreconditions(c, fs, launcher) && EnsureDirectory(fs, Parent(c.submodulesDir), true).Ok?
    ensures |r.launched| == 2 ==> r.launched[1] == SyncCommand(c, force)
    ensures |r.launched| == 2 ==> r.fs == EnsureDirectory(fs, Parent(c.submodulesDir), true).value
    ensures |r.launched| == 2 && RunCommand(SyncCommand(c, force), true, true, launcher).Err? ==>
      r.outcome == Fail(RunCommand(SyncCommand(c, force), true, true, launcher).error)
    ensures |r.launched| < 2 ==> r.fs == fs && r.outcome.Fail?
    ensures r.outcome.Fail? ==> r.outcome.error.kind == FactoryAI
    ensures r.outcome.Pass? <==>
      && SyncPreconditions(c, fs, launcher)
      && EnsureDirectory(fs, Parent(c.submodulesDir), true).Ok?
      && launcher(SyncCommand(c, force)).Exited? && launcher(SyncCommand(c, force)).code == 0
    ensures r.outcome.Pass? ==> IsDir(r.fs, Parent(c.submodulesDir))
    ensures forall q :: q in fs ==> q in r.fs && r.fs[q] == fs[q]
    ensures WellFormed(fs) ==> WellFormed(r.fs)
  {
    if !CheckGitInstalled(launcher) then
      SyncResult(Fail(FactoryAIError("Git is not installed", Some(GitMissingHint))), fs, [GitVersion])
    else if !IsGitRepository(fs, c.rootDir) then
      SyncResult(Fail(FactoryAIError("Not a git repository: " + ToString(c.rootDir), Some(CloneHint))), fs, [GitVersion])
    else
      match EnsureDirectory(fs, Parent(c.submodulesDir), true)
      case Err(e) => SyncResult(Fail(e), fs, [GitVersion])
      case Ok(fs') =>
        var command := SyncCommand(c, force);
        match RunCommand(command, true, true, launcher)
        case Err(e) => SyncResult(Fail(e), fs', [GitVersion, command])
        case Ok(_) => SyncResult(Pass, fs', [GitVersion, command])
  }

  /** `check_component_available(id)`: the configuration's availability check. */
  function CheckComponentAvailable(c: FactoryAIConfig, fs: FileSystem, id: string): (r: bool)
    ensures r <==> id in c.components && IsDir(fs, ComponentPath(c, id))
  {
    IsComponentAvailable(c, fs, id)
  }

  /** One entry of `get_component_status()`. */
  datatype ComponentStatus = ComponentStatus(name: string, enabled: bool, available: bool, path: string, url: string)

  /** `get_component_status()`: one entry per configured component; `available`
      asks only whether the path exists, so a plain file counts. */
  function GetComponentStatus(c: FactoryAIConfig, fs: FileSystem): (r: map<string, ComponentStatus>)
    ensures r.Keys == c.components.Keys
    ensures forall id :: id in r ==>
      && r[id].name == c.components[id].name
      && r[id].enabled == c.components[id].enabled
      && r[id].url == c.components[id].url
    ensures forall id :: id in r ==> r[id].path == ToString(GetComponentPath(c, id).value)
    ensures forall id :: id in r ==> (r[id].available <==> GetComponentPath(c, id).value in fs)
  {
    map id | id in c.components ::
      var s := c.components[id];
      ComponentStatus(s.name, s.enabled, ComponentPath(c, id) in fs, ToString(ComponentPath(c, id)), s.url)
  }

  /** An available component is reported available; a component whose path is
      a plain file is reported available although it cannot be run. */
  lemma StatusVersusAvailability(c: FactoryAIConfig, fs: FileSystem, id: string)
    requires id in c.components
    ensures IsComponentAvailable(c, fs, id) ==> GetComponentStatus(c, fs)[id].available
    ensures ComponentPath(c, id) in fs && fs[ComponentPath(c, id)] == File ==>
      GetComponentStatus(c, fs)[id].available && !IsComponentAvailable(c, fs, id)
  {
  }

  const MainScript: string := "main.py"
  const FallbackScript: string := "app.py"

  /** The entry point of a component directory: `main.py` if it exists, else `app.py` if that exists. */
  function EntryPoint(fs: FileSystem, dir: Path): (r: Option<Path>)
    ensures r.Some? ==> r.value in fs
    ensures r.Some? ==> (r.value == Path(dir.absolute, dir.segments + [MainScript])
                      || r.value == Path(dir.absolute, dir.segments + [FallbackScript]))
  {
    assert ValidSegment(MainScript) && ValidSegment(FallbackScript);
    ParseSegment(MainScript);
    ParseSegment(FallbackScript);
    if Child(dir, MainScript) in fs then Some(Child(dir, MainScript))
    else if Child(dir, FallbackScript) in fs then Some(Child(dir, FallbackScript))
    else None
  }

  /** `main.py` wins when present; `app.py` is used only in its absence; with neither there is no entry point. */
  lemma EntryPointOrder(fs: FileSystem, dir: Path)
    ensures Child(dir, MainScript) in fs ==> EntryPoint(fs, dir) == Some(Child(dir, MainScript))
    ensures Child(dir, MainScript) !in fs && Child(dir, FallbackScript) in fs ==>
      EntryPoint(fs, dir) == Some(Child(dir, FallbackScript))
    ensures EntryPoint(fs, dir).None? <==> Child(dir, MainScript) !in fs && Child(dir, FallbackScript) !in fs
  {
  }

  /** The launch of a component: the interpreter, the script, then the caller's arguments, in the component directory. */
  function ComponentCommand(script: Path, dir: Path, args: seq<string>): (inv: Invocation)
    ensures |inv.argv| == 2 + |args| && inv.argv[..2] == ["python", ToString(script)] && inv.argv[2..] == args
    ensures inv.cwd == Some(dir)
  {
    Invocation(["python", ToString(script)] + args, Some(dir))
  }

  /** The text of the `FileNotFoundError` a direct launch raises for a missing executable. */
  function NoSuchFileText(executable: string): string {
    "[Errno 2] No such file or directory: '" + executable + "'"
  }

  /** The ComponentError for a non-zero exit. */
  function ExitError(id: string, code: int): Error {
    ComponentError(id, "Component exited with code " + IntToString(code))
  }

  /** How a launched component ends: None for exit code 0, else the error
      the `try` block raises once wrapped into a ComponentError. An
      interactive run launches directly, so a launch failure arrives as the
      raw OS error; a captured run goes through `run_command`, whose own
      error text is kept. */
  function LaunchError(id: string, inv: Invocation, launcher: Launcher, interactive: bool): (e: Option<Error>)
    requires |inv.argv| > 0
    ensures e.None? <==> launcher(inv).Exited? && launcher(inv).code == 0
    ensures e.Some? ==> e.value.kind == Component
    ensures launcher(inv).Exited? && launcher(inv).code != 0 ==> e == Some(ExitError(id, launcher(inv).code))
    ensures !interactive && launcher(inv).NotFound? ==>
      e == Some(ComponentError(id, Render(FactoryAIError("Command not found: " + inv.argv[0], Some(InstallHint)))))
    ensures interactive && launcher(inv).NotFound? ==> e == Some(ComponentError(id, NoSuchFileText(inv.argv[0])))
    ensures interactive && launcher(inv).Crashed? ==> e == Some(ComponentError(id, launcher(inv).reason))
    ensures !interactive && launcher(inv).Crashed? ==>
      e == Some(ComponentError(id, "Failed to run command: " + launcher(inv).reason))
  {
    if interactive then
      match launcher(inv)
      case NotFound => Some(ComponentError(id, NoSuchFileText(inv.argv[0])))
      case Crashed(reason) => Some(ComponentError(id, reason))
      case Exited(code, _, _) => if code != 0 then Some(ExitError(id, code)) else None
    else
      match RunCommand(inv, true, false, launcher)
      case Err(err) => Some(ComponentError(id, Render(err)))
      case Ok(res) => if res.exitCode != 0 then Some(ExitError(id, res.exitCode)) else None
  }

  /** What `run_component` leaves behind: its return value or error, and the commands it launched. */
  datatype RunResult = RunResult(result: Result<int>, launched: seq<Invocation>)

  /** `run_component(id, args, interactive)`: availability, then the enabled
      flag, then the entry point, then one launch whose exit code must be 0. */
  function RunComponent(c: FactoryAIConfig, fs: FileSystem, launcher: Launcher, id: string, args: seq<string>,
                        interactive: bool): (r: RunResult)
    ensures !IsComponentAvailable(c, fs, id) ==> r == RunResult(Err(SubmoduleNotFoundError(id)), [])
    ensures IsComponentAvailable(c, fs, id) && !c.components[id].enabled ==>
      r == RunResult(Err(ComponentError(id, "Component is not enabled")), [])
    ensures IsComponentAvailable(c, fs, id) && c.components[id].enabled && EntryPoint(fs, ComponentPath(c, id)).None? ==>
      r == RunResult(Err(ComponentError(id, "No main entry point found at " + ToString(ComponentPath(c, id)))), [])
    ensures |r.launched| > 0 <==>
      IsComponentAvailable(c, fs, id) && c.components[id].enabled && EntryPoint(fs, ComponentPath(c, id)).Some?
    ensures |r.launched| > 0 ==>
      r.launched == [ComponentCommand(EntryPoint(fs, ComponentPath(c, id)).value, ComponentPath(c, id), args)]
    ensures r.result.Ok? ==> r.result.value == 0
    ensures r.result.Ok? <==> |r.launched| > 0 && launcher(r.launched[0]).Exited? && launcher(r.launched[0]).code == 0
    ensures |r.launched| > 0 && launcher(r.launched[0]).Exited? && launcher(r.launched[0]).code != 0 ==>
      r.result == Err(ExitError(id, launcher(r.launched[0]).code))
    ensures |r.launched| > 0 && !launcher(r.launched[0]).Exited? ==>
      r.result == Err(LaunchError(id, r.launched[0], launcher, interactive).value)
    ensures r.result.Err? ==> r.result.error.kind == (if IsComponentAvailable(c, fs, id) then Component else SubmoduleNotFound)
  {
    if !CheckComponentAvailable(c, fs, id) then RunResult(Err(SubmoduleNotFoundError(id)), [])
    else if !c.components[id].enabled then RunResult(Err(ComponentError(id, "Component is not enabled")), [])
    else
      var dir := ComponentPath(c, id);
      match EntryPoint(fs, dir)
      case None => RunResult(Err(ComponentError(id, "No main entry point found at " + ToString(dir))), [])
      case Some(script) =>
        var command := ComponentCommand(script, dir, args);
        match LaunchError(id, command, launcher, interactive)
        case Some(e) => RunResult(Err(e), [command])
        case None => RunResult(Ok(0), [command])
  }

  /** A successful run means the status report shows the component available and enabled. */
  lemma RunImpliesStatus(c: FactoryAIConfig, fs: FileSystem, launcher: Launcher, id: string, args: seq<string>,
                         interactive: bool)
    ensures RunComponent(c, fs, launcher, id, args, interactive).result.Ok? ==>
      && id in GetComponentStatus(c, fs)
      && GetComponentStatus(c, fs)[id].available && GetComponentStatus(c, fs)[id].enabled
  {
  }

  /** A component directory with only `app.py` runs `app.py`. */
  lemma FallbackScriptRuns(c: FactoryAIConfig, fs: FileSystem, launcher: Launcher, id: string, args: seq<string>,
                           interactive: bool)
    ensures && IsComponentAvailable(c, fs, id) && c.components[id].enabled
            && Child(ComponentPath(c, id), MainScript) !in fs && Child(ComponentPath(c, id), FallbackScript) in fs
            ==> RunComponent(c, fs, launcher, id, args, interactive).launched
                == [ComponentCommand(Child(ComponentPath(c, id), FallbackScript), ComponentPath(c, id), args)]
  {
  }

  /** An available, enabled component whose `main.py` exits 0 runs to 0, launching `main.py` once. */
  lemma MainScriptRuns(c: FactoryAIConfig, fs: FileSystem, launcher: Launcher, id: string, args: seq<string>,
                       interactive: bool)
    requires IsComponentAvailable(c, fs, id) && c.components[id].enabled
    requires var dir := ComponentPath(c, id);
      && Child(dir, MainScript) in fs
      && launcher(ComponentCommand(Child(dir, MainScript), dir, args)).Exited?
      && launcher(ComponentCommand(Child(dir, MainScript), dir, args)).code == 0
    ensures RunComponent(c, fs, launcher, id, args, interactive).result == Ok(0)
    ensures RunComponent(c, fs, launcher, id, args, interactive).launched
         == [ComponentCommand(Child(ComponentPath(c, id), MainScript), ComponentPath(c, id), args)]
  {
  }

  /** In the default configuration, Factory-App-AI is known, enabled, and lives under `src/platfom`. */
  lemma DefaultAppAi(rootDir: Path)
    ensures AppAiId in DefaultConfig(rootDir).components
    ensures DefaultConfig(rootDir).components[AppAiId].enabled
    ensures ComponentPath(DefaultConfig(rootDir), AppAiId)
         == Path(rootDir.absolute, rootDir.segments + ["src", "platfom", "Factory-App-AI"])
  {
    DefaultAppAiPath(rootDir);
    DefaultConfigShape(rootDir);
  }

  /** The run of one component described only by where it lives: present as a
      directory holding `main.py`, enabled, and exiting 0 under the launcher. */
  lemma RunFromFacts(c: FactoryAIConfig, fs: FileSystem, launcher: Launcher, id: string, dir: Path)
    requires id in c.components && c.components[id].enabled && ComponentPath(c, id) == dir
    requires IsDir(fs, dir) && Path(dir.absolute, dir.segments + [MainScript]) in fs
    requires launcher(ComponentCommand(Path(dir.absolute, dir.segments + [MainScript]), dir, [])).Exited?
    requires launcher(ComponentCommand(Path(dir.absolute, dir.segments + [MainScript]), dir, [])).code == 0
    ensures RunComponent(c, fs, launcher, id, [], false).result == Ok(0)
  {
    assert ValidSegment(MainScript);
    ParseSegment(MainScript);
    assert Child(dir, MainScript) == Path(dir.absolute, dir.segments + [MainScript]);
    MainScriptRuns(c, fs, launcher, id, [], false);
  }

  /** With the default configuration on any root, a Factory-App-AI directory
      holding `main.py`, and a launcher under which it exits 0, a captured run returns 0. */
  lemma EndToEnd(rootDir: Path, fs: FileSystem, launcher: Launcher)
    requires var dir := Path(rootDir.absolute, rootDir.segments + ["src", "platfom", "Factory-App-AI"]);
      && IsDir(fs, dir)
      && Path(dir.absolute, dir.segments + [MainScript]) in fs
      && launcher(ComponentCommand(Path(dir.absolute, dir.segments + [MainScript]), dir, [])).Exited?
      && launcher(ComponentCommand(Path(dir.absolute, dir.segments + [MainScript]), dir, [])).code == 0
    ensures RunComponent(DefaultConfig(rootDir), fs, launcher, AppAiId, [], false).result == Ok(0)
  {
    DefaultAppAi(rootDir);
    RunFromFacts(DefaultConfig(rootDir), fs, launcher, AppAiId,
                 Path(rootDir.absolute, rootDir.segments + ["src", "platfom", "Factory-App-AI"]));
  }

  const GitMissingError: string := "Git is not installed"
  const NotRepositoryError: string := "Not a git repository"
  const NoComponentsError: string := "No components are initialized. Run 'factoryai sync' or 'make sync'."

  /** The result of `validate_installation()`. */
  datatype Report = Report(valid: bool, gitInstalled: bool, isGitRepo: bool, submodulesInitialized: bool,
                           components: map<string, ComponentStatus>, errors: seq<string>)

  /** Where each error message sits in the fixed order of the checks. */
  function CheckRank(message: string): nat {
    if message == GitMissingError then 0 else if message == NotRepositoryError then 1 else 2
  }

  /** The three messages are distinct, so each has its own rank. */
  lemma MessageRanks()
    ensures CheckRank(GitMissingError) == 0 && CheckRank(NotRepositoryError) == 1 && CheckRank(NoComponentsError) == 2
  {
    assert GitMissingError[0] != NotRepositoryError[0];
    assert |GitMissingError| == |NotRepositoryError| < |NoComponentsError|;
  }

  /** The `errors` list of the report: one message per failed check, in the order of the checks. */
  function ErrorMessages(git: bool, repo: bool, initialised: bool): (errors: seq<string>)
    ensures GitMissingError in errors <==> !git
    ensures NotRepositoryError in errors <==> !repo
    ensures NoComponentsError in errors <==> !initialised
    ensures |errors| == (if git then 0 else 1) + (if repo then 0 else 1) + (if initialised then 0 else 1)
    ensures forall i, j :: 0 <= i < j < |errors| ==> CheckRank(errors[i]) < CheckRank(errors[j])
  {
    MessageRanks();
    (if git then [] else [GitMissingError])
    + (if repo then [] else [NotRepositoryError])
    + (if initialised then [] else [NoComponentsError])
  }

  /** Some component is both enabled and present on disk (as a file or a directory). */
  predicate AnyEnabledPresent(c: FactoryAIConfig, fs: FileSystem) {
    exists id :: id in c.components && c.components[id].enabled && ComponentPath(c, id) in fs
  }

  /** `validate_installation()`: the git and repository checks clear `valid`;
      the component check only adds its message. */
  function ValidateInstallation(c: FactoryAIConfig, fs: FileSystem, launcher: Launcher): (r: Report)
    ensures r.gitInstalled == CheckGitInstalled(launcher)
    ensures r.isGitRepo == IsGitRepository(fs, c.rootDir)
    ensures r.components == GetComponentStatus(c, fs)
    ensures r.submodulesInitialized <==>
      exists id :: id in r.components && r.components[id].available && r.components[id].enabled
    ensures r.submodulesInitialized <==> AnyEnabledPresent(c, fs)
    ensures r.valid <==> r.gitInstalled && r.isGitRepo
    ensures r.errors == ErrorMessages(r.gitInstalled, r.isGitRepo, r.submodulesInitialized)
  {
    var git := CheckGitInstalled(launcher);
    var repo := IsGitRepository(fs, c.rootDir);
    var status := GetComponentStatus(c, fs);
    var initialised := exists id :: id in status && status[id].available && status[id].enabled;
    assert initialised <==> AnyEnabledPresent(c, fs) by {
      if initialised {
        var id :| id in status && status[id].available && status[id].enabled;
        assert id in c.components && c.components[id].enabled && ComponentPath(c, id) in fs;
      }
      if AnyEnabledPresent(c, fs) {
        var id :| id in c.components && c.components[id].enabled && ComponentPath(c, id) in fs;
        assert id in status && status[id].available && status[id].enabled;
      }
    }
    Report(git && repo, git, repo, initialised, status, ErrorMessages(git, repo, initialised))
  }

  /** A valid report means a sync passes both of its preconditions; an invalid
      one means a sync fails at once, launching only the git probe and changing nothing. */
  lemma ValidatePredictsSync(c: FactoryAIConfig, fs: FileSystem, launcher: Launcher, force: bool)
    ensures ValidateInstallation(c, fs, launcher).valid <==> SyncPreconditions(c, fs, launcher)
    ensures !ValidateInstallation(c, fs, launcher).valid ==>
      var r := SyncSubmodules(c, fs, launcher, force);
      r.outcome.Fail? && r.fs == fs && r.launched == [GitVersion]
  {
  }

  /** The result of `info()`. */
  datatype InstallationInfo = InstallationInfo(version: string, rootDir: string, submodulesDir: string,
                                               logLevel: string, components: map<string, ComponentStatus>)

  /** `info()`: the configuration's fields as text plus the status map; the
      package version comes from the installed metadata and is a parameter here. */
  function Info(c: FactoryAIConfig, fs: FileSystem, version: string): (r: InstallationInfo)
    ensures r.version == version && r.logLevel == c.logLevel
    ensures ValidPath(c.rootDir) ==> ParsePath(r.rootDir) == c.rootDir
    ensures ValidPath(c.submodulesDir) ==> ParsePath(r.submodulesDir) == c.submodulesDir
    ensures r.rootDir == ToString(c.rootDir) && r.submodulesDir == ToString(c.submodulesDir)
    ensures r.components.Keys == c.components.Keys && r.components == GetComponentStatus(c, fs)
  {
    assert ValidPath(c.rootDir) ==> ParsePath(ToString(c.rootDir)) == c.rootDir by {
      if ValidPath(c.rootDir) { ParseToString(c.rootDir); }
    }
    assert ValidPath(c.submodulesDir) ==> ParsePath(ToString(c.submodulesDir)) == c.submodulesDir by {
      if ValidPath(c.submodulesDir) { ParseToString(c.submodulesDir); }
    }
    InstallationInfo(version, ToString(c.rootDir), ToString(c.submodulesDir), c.logLevel, GetComponentStatus(c, fs))
  }

  /** `info()` and `validate_installation()` report the same component statuses, whatever git does. */
  lemma InfoMatchesValidation(c: FactoryAIConfig, fs: FileSystem, version: string, launcher: Launcher)
    ensures Info(c, fs, version).components == ValidateInstallation(c, fs, launcher).components
  {
  }
}

=== FILE: paths.dfy ===
/** Filesystem paths as pathlib sees them: an absolute flag and a sequence of
    segments. `Path(s)` splits on '/' and drops empty and "." segments; `a / b`
    returns `b` when `b` is absolute. */
module Paths {
  import opened Strings

  datatype Path = Path(absolute: bool, segments: seq<string>)

  /** A segment pathlib keeps: non-empty, not ".", and free of '/'. */
  predicate ValidSegment(s: string) {
    s != "" && s != "." && '/' !in s
  }

  /** Every path pathlib can build has only valid segments. */
  predicate ValidPath(p: Path) {
    forall i :: 0 <= i < |p.segments| ==> ValidSegment(p.segments[i])
  }

  /** Drops the empty and "." pieces of a split path string. */
  function Normalise(parts: seq<string>): (r: seq<string>)
    ensures forall i :: 0 <= i < |r| ==> r[i] != "" && r[i] != "."
    ensures forall x :: x in r ==> x in parts
    ensures (forall i :: 0 <= i < |parts| ==> parts[i] != "" && parts[i] != ".") ==> r == parts
    decreases |parts|
  {
    if |parts| == 0 then []
    else if parts[0] == "" || parts[0] == "." then Normalise(parts[1..])
    else [parts[0]] + Normalise(parts[1..])
  }

  /** A piece survives normalisation alone iff it is neither empty nor ".". */
  lemma NormaliseSingle(x: string)
    ensures Normalise([x]) == if x == "" || x == "." then [] else [x]
  {
    assert [x][1..] == [];
  }

  /** Normalisation works piece by piece: the pieces kept from `a + b` are those
      kept from `a` followed by those kept from `b`, in order. */
  lemma {:induction false} NormaliseAppend(a: seq<string>, b: seq<string>)
    ensures Normalise(a + b) == Normalise(a) + Normalise(b)
    decreases |a|
  {
    if |a| == 0 {
      assert a + b == b;
    } else {
      assert (a + b)[0] == a[0];
      assert (a + b)[1..] == a[1..] + b;
      NormaliseAppend(a[1..], b);
    }
  }

  /** `Path(s)`. */
  function ParsePath(s: string): (p: Path)
    ensures ValidPath(p)
    ensures p.absolute <==> |s| > 0 && s[0] == '/'
  {
    var parts := Split(s, '/');
    var segs := Normalise(parts);
    assert forall i :: 0 <= i < |segs| ==> ValidSegment(segs[i]) by {
      forall i | 0 <= i < |segs|
        ensures ValidSegment(segs[i])
      {
        assert segs[i] in parts;
      }
    }
    Path(|s| > 0 && s[0] == '/', segs)
  }

  /** Text joined with "/" parses to the segments of each side, in order; the
      result is absolute iff the left side is, or is empty. */
  lemma ParsePathSlash(a: string, b: string)
    ensures ParsePath(a + "/" + b).segments == ParsePath(a).segments + ParsePath(b).segments
    ensures ParsePath(a + "/" + b).absolute <==> |a| == 0 || ParsePath(a).absolute
  {
    SplitSeparator(a, b, '/');
    assert a + "/" + b == a + ['/'] + b;
    NormaliseAppend(Split(a, '/'), Split(b, '/'));
    if |a| > 0 {
      assert (a + "/" + b)[0] == a[0];
    }
  }

  /** `str(p)`: "/" before the segments of an absolute path, "." for the empty relative path. */
  function ToString(p: Path): (s: string)
    ensures ValidPath(p) ==> |s| > 0
    ensures ValidPath(p) && |p.segments| == 0 ==> s == (if p.absolute then "/" else ".")
  {
    if p.absolute then "/" + JoinWith(p.segments, "/")
    else if |p.segments| == 0 then "."
    else
      assert ValidPath(p) ==> |JoinWith(p.segments, "/")| > 0 by {
        if ValidPath(p) {
          assert ValidSegment(p.segments[0]);
          JoinFirst(p.segments, "/");
        }
      }
      JoinWith(p.segments, "/")
  }

  /** `str(p)` of a path with segments is canonical: split on "/" it gives one
      empty piece for the root of an absolute path, then exactly the segments,
      so there is no doubled, leading or trailing slash. */
  lemma TextSegments(p: Path)
    requires ValidPath(p) && |p.segments| > 0
    ensures Split(ToString(p), '/') == (if p.absolute then [""] else []) + p.segments
  {
    var joined := JoinWith(p.segments, "/");
    SplitJoin(p.segments, '/');
    if p.absolute {
      assert ToString(p) == [] + ['/'] + joined;
      SplitSeparator([], joined, '/');
    }
  }

  /** The text of a relative path with segments is the segments joined by "/". */
  lemma RelativeText(p: Path)
    requires !p.absolute && |p.segments| > 0
    ensures ToString(p) == JoinWith(p.segments, "/")
  {
  }

  /** Rendering a path and parsing the text gives the same path. */
  lemma ParseToString(p: Path)
    requires ValidPath(p)
    ensures ParsePath(ToString(p)) == p
  {
    var segs := p.segments;
    if |segs| > 0 {
      TextSegments(p);
      assert forall i :: 0 <= i < |segs| ==> segs[i] != "" && segs[i] != "." by {
        forall i | 0 <= i < |segs| ensures segs[i] != "" && segs[i] != "." {
          assert ValidSegment(segs[i]);
        }
      }
      assert Normalise(segs) == segs;
      if p.absolute {
        NormaliseAppend([""], segs);
        NormaliseSingle("");
        assert ToString(p)[0] == '/';
      } else {
        var joined := JoinWith(segs, "/");
        JoinFirst(segs, "/");
        assert ValidSegment(segs[0]);
        assert segs[0][0] in segs[0];
        assert ToString(p) == joined && joined[0] != '/';
      }
    } else if p.absolute {
      var s := "/";
      assert s == [] + ['/'] + [];
      SplitSeparator([], [], '/');
      assert Split(s, '/') == ["", ""];
    } else {
      var dot := ".";
      assert dot[1..] == "";
      assert Split(dot[1..], '/') == [""];
      assert Split(dot, '/') == [[dot[0]] + ""];
    }
  }

  /** `a / b`: `b` itself when it is absolute, otherwise `b`'s segments after `a`'s. */
  function Join(a: Path, b: Path): (r: Path)
    ensures b.absolute ==> r == b
    ensures !b.absolute ==> r.absolute == a.absolute && |r.segments| == |a.segments| + |b.segments|
    ensures !b.absolute ==> r.segments[..|a.segments|] == a.segments && r.segments[|a.segments|..] == b.segments
    ensures ValidPath(a) && ValidPath(b) ==> ValidPath(r)
  {
    if b.absolute then b else Path(a.absolute, a.segments + b.segments)
  }

  /** A single valid segment parses to a one-segment relative path. */
  lemma ParseSegment(name: string)
    requires ValidSegment(name)
    ensures ParsePath(name) == Path(false, [name])
  {
    ParseToString(Path(false, [name]));
  }

  /** `p / name` for a name given as text. */
  function Child(p: Path, name: string): Path {
    Join(p, ParsePath(name))
  }

  /** `p.parent`: the path without its last segment; the root and "." are their own parents. */
  function Parent(p: Path): (r: Path)
    ensures r.absolute == p.absolute
    ensures |p.segments| > 0 ==> |r.segments| == |p.segments| - 1 && Join(r, Path(false, [p.segments[|p.segments| - 1]])) == p
    ensures |p.segments| == 0 ==> r == p
  {
    if |p.segments| == 0 then p else Path(p.absolute, p.segments[..|p.segments| - 1])
  }

}

=== FILE: process.dfy ===
/** `run_command` and `check_git_installed` of `factoryai/utils.py`, over an
    oracle that says how each launch ends. */
module Process {
  import opened Wrappers
  import opened Strings
  import opened Errors
  import opened Paths

  /** One process launch: the argument vector and the working directory (None: inherited). */
  datatype Invocation = Invocation(argv: seq<string>, cwd: Option<Path>)

  /** How a launch ends: the executable was not found, the launch raised some
      other OS error (with its text), or the child exited. */
  datatype Launch = NotFound | Crashed(reason: string) | Exited(code: int, stdout: string, stderr: string)

  /** The operating system, as seen by the program: the fate of each launch. */
  type Launcher = Invocation -> Launch

  /** `(returncode, stdout, stderr)`. */
  datatype CommandResult = CommandResult(exitCode: int, stdout: string, stderr: string)

  const InstallHint: string := "Please ensure the command is installed and in your PATH."

  /** What Python raises before launching anything when the argument vector is empty. */
  const EmptyArgvText: string := "list index out of range"

  /** The error `run_command` raises for a non-zero exit under `check`, before it is re-wrapped. */
  function ExitFailure(inv: Invocation, code: int, stderr: string): Error {
    FactoryAIError("Command failed with exit code " + IntToString(code),
                   Some("Command: " + JoinWith(inv.argv, " ") + "\nStderr: " + stderr))
  }

  /** `run_command(command, cwd, capture_output, check)`. The generic handler
      also catches the non-zero-exit error raised inside the `try`, so that
      error reaches the caller re-wrapped as "Failed to run command: ..." with no details. */
  function RunCommand(inv: Invocation, capture: bool, check: bool, launcher: Launcher): (r: Result<CommandResult>)
    ensures r.Err? ==> r.error.kind == FactoryAI
    ensures |inv.argv| == 0 ==> r == Err(FactoryAIError("Failed to run command: " + EmptyArgvText, None))
    ensures |inv.argv| > 0 && launcher(inv).NotFound? ==>
      r == Err(FactoryAIError("Command not found: " + inv.argv[0], Some(InstallHint)))
    ensures |inv.argv| > 0 && launcher(inv).Crashed? ==>
      r == Err(FactoryAIError("Failed to run command: " + launcher(inv).reason, None))
    ensures r.Ok? <==> |inv.argv| > 0 && launcher(inv).Exited? && (!check || launcher(inv).code == 0)
    ensures r.Ok? ==> r.value.exitCode == launcher(inv).code
    ensures r.Ok? ==> r.value.stdout == (if capture then launcher(inv).stdout else "")
    ensures r.Ok? ==> r.value.stderr == (if capture then launcher(inv).stderr else "")
    ensures |inv.argv| > 0 && launcher(inv).Exited? && check && launcher(inv).code != 0 ==>
      var stderr := if capture then launcher(inv).stderr else "";
      r == Err(FactoryAIError("Failed to run command: " + Render(ExitFailure(inv, launcher(inv).code, stderr)), None))
  {
    if |inv.argv| == 0 then Err(FactoryAIError("Failed to run command: " + EmptyArgvText, None))
    else
      match launcher(inv)
      case NotFound => Err(FactoryAIError("Command not found: " + inv.argv[0], Some(InstallHint)))
      case Crashed(reason) => Err(FactoryAIError("Failed to run command: " + reason, None))
      case Exited(code, out, err) =>
        var stdout := if capture then out else "";
        var stderr := if capture then err else "";
        if check && code != 0 then
          Err(FactoryAIError("Failed to run command: " + Render(ExitFailure(inv, code, stderr)), None))
        else Ok(CommandResult(code, stdout, stderr))
  }

  /** Under `check`, a non-zero exit always surfaces as a base-kind error
      without details; the inner error's text, details included, becomes part of the message. */
  lemma CheckedFailureMessage(inv: Invocation, capture: bool, launcher: Launcher)
    requires |inv.argv| > 0 && launcher(inv).Exited? && launcher(inv).code != 0
    ensures var r := RunCommand(inv, capture, true, launcher);
      var stderr := if capture then launcher(inv).stderr else "";
      && r.Err? && r.error.kind == FactoryAI && r.error.details.None?
      && r.error.message == "Failed to run command: "
                            + ("Command failed with exit code " + IntToString(launcher(inv).code))
                            + DetailsSeparator
                            + ("Command: " + JoinWith(inv.argv, " ") + "\nStderr: " + stderr)
  {
    var stderr := if capture then launcher(inv).stderr else "";
    var inner := ExitFailure(inv, launcher(inv).code, stderr);
    assert HasDetails(inner);
    var rendered := Render(inner);
    assert rendered == inner.message + DetailsSeparator + inner.details.value;
    assert RunCommand(inv, capture, true, launcher).error.message == "Failed to run command: " + rendered;
  }

  /** The probe `check_git_installed` runs. */
  const GitVersion: Invocation := Invocation(["git", "--version"], None)

  /** `check_git_installed()`: the probe ran and exited with code 0. */
  function CheckGitInstalled(launcher: Launcher): (r: bool)
    ensures r <==> launcher(GitVersion).Exited? && launcher(GitVersion).code == 0
  {
    RunCommand(GitVersion, true, true, launcher).Ok?
  }
}

=== FILE: strings.dfy ===
/** Text helpers the model shares: Python's `str.split` on a one-character
    separator, `str.join`, and decimal rendering and parsing of integers. */
module Strings {

  /** Python's `s.split(c)` for a single separator character: the pieces
      between separators, empty pieces kept, and always at least one piece. */
  function Split(s: string, c: char): (r: seq<string>)
    ensures |r| >= 1
    ensures forall i :: 0 <= i < |r| ==> c !in r[i]
    decreases |s|
  {
    if |s| == 0 then [""]
    else
      var rest := Split(s[1..], c);
      if s[0] == c then [""] + rest
      else [[s[0]] + rest[0]] + rest[1..]
  }

  /** The number of characters in all the pieces together. */
  function TotalLength(xs: seq<string>): nat
    decreases |xs|
  {
    if |xs| == 0 then 0 else |xs[0]| + TotalLength(xs[1..])
  }

  /** Python's `sep.join(xs)`: every piece once, a separator between
      neighbours, and nothing else; the first piece comes first. */
  function JoinWith(xs: seq<string>, sep: string): (r: string)
    ensures |r| == TotalLength(xs) + (if |xs| == 0 then 0 else (|xs| - 1) * |sep|)
    ensures |xs| > 0 ==> |r| >= |xs[0]| && r[..|xs[0]|] == xs[0]
    decreases |xs|
  {
    if |xs| == 0 then ""
    else if |xs| == 1 then xs[0]
    else xs[0] + sep + JoinWith(xs[1..], sep)
  }

  /** A joined sequence whose first piece is non-empty starts with that piece's first character. */
  lemma {:induction false} JoinFirst(xs: seq<string>, sep: string)
    requires |xs| > 0 && |xs[0]| > 0
    ensures |JoinWith(xs, sep)| > 0 && JoinWith(xs, sep)[0] == xs[0][0]
  {
  }

  /** Splitting a string and joining the pieces back gives the string again. */
  lemma {:induction false} JoinSplit(s: string, c: char)
    ensures JoinWith(Split(s, c), [c]) == s
    decreases |s|
  {
    if |s| > 0 {
      var rest := Split(s[1..], c);
      JoinSplit(s[1..], c);
      if s[0] == c {
        assert Split(s, c) == [""] + rest;
        assert ([""] + rest)[1..] == rest;
        assert JoinWith([""] + rest, [c]) == "" + [c] + JoinWith(rest, [c]);
        assert s == [s[0]] + s[1..];
      } else if |rest| == 1 {
        assert Split(s, c) == [[s[0]] + rest[0]];
        assert s == [s[0]] + s[1..];
      } else {
        var r := Split(s, c);
        assert r == [[s[0]] + rest[0]] + rest[1..];
        assert r[1..] == rest[1..];
        assert JoinWith(rest, [c]) == rest[0] + [c] + JoinWith(rest[1..], [c]);
        assert s == [s[0]] + s[1..];
      }
    }
  }

  /** Splitting `a + t` where `a` holds no separator glues `a` onto the first piece of `t`. */
  lemma {:induction false} SplitAppend(a: string, t: string, c: char)
    requires c !in a
    ensures Split(a + t, c) == [a + Split(t, c)[0]] + Split(t, c)[1..]
    decreases |a|
  {
    if |a| == 0 {
      assert a + t == t;
      var r := Split(t, c);
      assert r == [r[0]] + r[1..];
      assert a + r[0] == r[0];
    } else {
      assert (a + t)[0] == a[0];
      assert (a + t)[1..] == a[1..] + t;
      SplitAppend(a[1..], t, c);
      assert [a[0]] + (a[1..] + Split(t, c)[0]) == a + Split(t, c)[0];
    }
  }

  /** Joining pieces that hold no separator and splitting again gives the pieces back. */
  lemma {:induction false} SplitJoin(xs: seq<string>, c: char)
    requires |xs| >= 1
    requires forall i :: 0 <= i < |xs| ==> c !in xs[i]
    ensures Split(JoinWith(xs, [c]), c) == xs
    decreases |xs|
  {
    if |xs| == 1 {
      SplitAppend(xs[0], "", c);
      assert xs[0] + "" == xs[0];
    } else {
      var tail := JoinWith(xs[1..], [c]);
      SplitJoin(xs[1..], c);
      assert JoinWith(xs, [c]) == xs[0] + ([c] + tail);
      SplitAppend(xs[0], [c] + tail, c);
      assert ([c] + tail)[1..] == tail;
      assert Split([c] + tail, c) == [""] + xs[1..];
      assert xs[0] + "" == xs[0];
      assert xs == [xs[0]] + xs[1..];
    }
  }

  /** A separator between `a` and `b` splits there: the pieces of `a`, then those of `b`. */
  /** One step of `Split`: the first character either ends the first piece or joins it. */
  lemma SplitHead(s: string, c: char)
    requires |s| > 0
    ensures s[0] == c ==> Split(s, c) == [""] + Split(s[1..], c)
    ensures s[0] != c ==> Split(s, c) == [[s[0]] + Split(s[1..], c)[0]] + Split(s[1..], c)[1..]
  {
  }

  lemma {:induction false} SplitSeparator(a: string, b: string, c: char)
    ensures Split(a + [c] + b, c) == Split(a, c) + Split(b, c)
    decreases |a|
  {
    var t := a + [c] + b;
    SplitHead(t, c);
    if |a| == 0 {
      assert t[0] == c && t[1..] == b;
    } else {
      assert t[0] == a[0];
      assert t[1..] == a[1..] + [c] + b;
      SplitSeparator(a[1..], b, c);
      SplitHead(a, c);
      var ra, sb := Split(a[1..], c), Split(b, c);
      assert Split(t[1..], c) == ra + sb;
      if a[0] != c {
        MergeFirst([a[0]], ra, sb);
      }
    }
  }

  /** Extending the first piece commutes with appending further pieces. */
  lemma MergeFirst(h: string, xs: seq<string>, ys: seq<string>)
    requires |xs| > 0
    ensures [h + (xs + ys)[0]] + (xs + ys)[1..] == ([h + xs[0]] + xs[1..]) + ys
  {
    assert (xs + ys)[0] == xs[0];
    assert (xs + ys)[1..] == xs[1..] + ys;
  }

  /** Every character of `s` other than the separator lies in some piece of `Split(s, c)`. */
  lemma {:induction false} SplitCovers(s: string, c: char, i: nat)
    requires i < |s| && s[i] != c
    ensures exists k :: 0 <= k < |Split(s, c)| && s[i] in Split(s, c)[k]
    decreases |s|
  {
    var r := Split(s, c);
    var rest := Split(s[1..], c);
    if i == 0 {
      assert r[0] == [s[0]] + rest[0];
      assert s[i] in r[0];
    } else {
      SplitCovers(s[1..], c, i - 1);
      var k :| 0 <= k < |rest| && s[1..][i - 1] in rest[k];
      assert s[1..][i - 1] == s[i];
      if s[0] == c {
        assert r[k + 1] == rest[k];
      } else if k == 0 {
        assert r[0] == [s[0]] + rest[0];
        assert s[i] in r[0];
      } else {
        assert r[k] == rest[k];
      }
    }
  }

  predicate IsDigit(ch: char) {
    '0' <= ch <= '9'
  }

  /** A non-empty run of ASCII decimal digits. */
  predicate IsDigitString(s: string) {
    |s| > 0 && forall i :: 0 <= i < |s| ==> IsDigit(s[i])
  }

  function DigitValue(ch: char): nat
    requires IsDigit(ch)
  {
    ch as int - '0' as int
  }

  function DigitChar(d: nat): char
    requires d < 10
  {
    ('0' as int + d) as char
  }

  /** The value of a string of decimal digits (leading zeros allowed, as in Python's `int`). */
  function ParseNat(s: string): nat
    requires forall i :: 0 <= i < |s| ==> IsDigit(s[i])
    decreases |s|
  {
    if |s| == 0 then 0
    else ParseNat(s[..|s| - 1]) * 10 + DigitValue(s[|s| - 1])
  }

  /** The decimal rendering of `n`, as Python's `str(n)`. */
  function NatToString(n: nat): (s: string)
    ensures IsDigitString(s)
    ensures n == 0 ==> s == "0"
    ensures n > 0 ==> s[0] != '0'
    decreases n
  {
    if n < 10 then [DigitChar(n)]
    else NatToString(n / 10) + [DigitChar(n % 10)]
  }

  /** Rendering a number and parsing it back gives the number. */
  lemma {:induction false} ParseNatToString(n: nat)
    ensures ParseNat(NatToString(n)) == n
    decreases n
  {
    if n >= 10 {
      var s := NatToString(n);
      ParseNatToString(n / 10);
      assert s[..|s| - 1] == NatToString(n / 10);
    }
  }

  /** The decimal rendering of a possibly negative integer, as Python's `str(i)`. */
  function IntToString(i: int): string {
    if i < 0 then "-" + NatToString(-i) else NatToString(i)
  }
}

=== FILE: versions.dfy ===
/** `parse_version` and `compare_versions` of `factoryai/utils.py`: a version
    string is its dot-separated integers, compared as Python compares tuples. */
module Versions {
  import opened Wrappers
  import opened Strings
  import opened Errors

  /** `int(x)` of every piece, or None when some piece is not a digit string. */
  function ParseSegments(pieces: seq<string>): (r: Option<seq<nat>>)
    ensures r.Some? <==> forall i :: 0 <= i < |pieces| ==> IsDigitString(pieces[i])
    ensures r.Some? ==> |r.value| == |pieces|
    ensures r.Some? ==> forall i :: 0 <= i < |pieces| ==> r.value[i] == ParseNat(pieces[i])
    decreases |pieces|
  {
    if |pieces| == 0 then Some([])
    else if !IsDigitString(pieces[0]) then None
    else
      match ParseSegments(pieces[1..])
      case None => None
      case Some(rest) => Some([ParseNat(pieces[0])] + rest)
  }

  /** `parse_version(s)`: one integer per dot-separated piece, or a ValidationError. */
  function ParseVersion(s: string): (r: Result<seq<nat>>)
    ensures r.Ok? <==> forall i :: 0 <= i < |Split(s, '.')| ==> IsDigitString(Split(s, '.')[i])
    ensures r.Ok? ==> |r.value| == |Split(s, '.')| >= 1
    ensures r.Ok? ==> forall i :: 0 <= i < |r.value| ==> r.value[i] == ParseNat(Split(s, '.')[i])
    ensures r.Err? ==> r.error == ValidationError("Invalid version string: " + s, None)
  {
    var parsed := ParseSegments(Split(s, '.'));
    if parsed.Some? then Ok(parsed.value)
    else Err(ValidationError("Invalid version string: " + s, None))
  }

  /** A parsable version string is non-empty and made of digits and dots only. */
  lemma ParsedVersionCharacters(s: string)
    ensures ParseVersion(s).Ok? ==> |s| > 0
    ensures ParseVersion(s).Ok? ==> forall i :: 0 <= i < |s| ==> IsDigit(s[i]) || s[i] == '.'
  {
    if ParseVersion(s).Ok? {
      var pieces := Split(s, '.');
      forall i | 0 <= i < |s| && s[i] != '.'
        ensures IsDigit(s[i])
      {
        SplitCovers(s, '.', i);
        var k :| 0 <= k < |pieces| && s[i] in pieces[k];
        assert IsDigitString(pieces[k]);
      }
    }
  }

  /** The empty string and a word such as "invalid.version.x" are rejected. */
  lemma RejectsNonNumeric()
    ensures ParseVersion("").Err?
    ensures ParseVersion("invalid.version.x").Err?
  {
    ParsedVersionCharacters("");
    ParsedVersionCharacters("invalid.version.x");
    assert !IsDigit("invalid.version.x"[0]);
  }

  /** The canonical text of a version: its numbers in decimal, joined by dots. */
  function FormatVersion(v: seq<nat>): string {
    JoinWith(seq(|v|, i requires 0 <= i < |v| => NatToString(v[i])), ".")
  }

  /** Parsing the canonical text of a non-empty version gives the version back. */
  lemma FormatParse(v: seq<nat>)
    requires |v| > 0
    ensures ParseVersion(FormatVersion(v)) == Ok(v)
  {
    var pieces := seq(|v|, i requires 0 <= i < |v| => NatToString(v[i]));
    forall i | 0 <= i < |pieces|
      ensures '.' !in pieces[i]
    {
      assert IsDigitString(pieces[i]);
    }
    SplitJoin(pieces, '.');
    assert Split(FormatVersion(v), '.') == pieces;
    forall i | 0 <= i < |v|
      ensures ParseNat(pieces[i]) == v[i]
    {
      ParseNatToString(v[i]);
    }
    var r := ParseVersion(FormatVersion(v));
    assert r.Ok?;
    assert r.value == v;
  }

  /** Tuple order by its textbook definition: at the first index where the
      tuples differ, `a` holds the smaller number, or `a` is a proper prefix of `b`. */
  ghost predicate FirstDifferenceLess(a: seq<nat>, b: seq<nat>) {
    exists k :: 0 <= k <= |a| && k < |b| && a[..k] == b[..k] && (k == |a| || a[k] < b[k])
  }

  lemma FirstDifferenceEmpty(a: seq<nat>, b: seq<nat>)
    requires |a| == 0
    ensures FirstDifferenceLess(a, b) <==> |b| > 0
  {
    if |b| > 0 {
      assert a[..0] == b[..0];
    }
  }

  /** The first difference of non-empty tuples is at the front, or is the first difference of their tails. */
  lemma FirstDifferenceStep(a: seq<nat>, b: seq<nat>)
    requires |a| > 0
    ensures FirstDifferenceLess(a, b) <==>
      |b| > 0 && (a[0] < b[0] || (a[0] == b[0] && FirstDifferenceLess(a[1..], b[1..])))
  {
    if FirstDifferenceLess(a, b) {
      FirstDifferenceToTail(a, b);
    }
    FirstDifferenceFromTail(a, b);
  }

  /** A first difference of non-empty tuples is at the front, or one of their tails. */
  lemma FirstDifferenceToTail(a: seq<nat>, b: seq<nat>)
    requires |a| > 0 && FirstDifferenceLess(a, b)
    ensures |b| > 0 && (a[0] < b[0] || (a[0] == b[0] && FirstDifferenceLess(a[1..], b[1..])))
  {
    var k :| 0 <= k <= |a| && k < |b| && a[..k] == b[..k] && (k == |a| || a[k] < b[k]);
    if k > 0 {
      assert a[0] == a[..k][0] == b[..k][0] == b[0];
      assert a[1..][..k - 1] == a[..k][1..] == b[..k][1..] == b[1..][..k - 1];
      if k < |a| {
        assert a[1..][k - 1] == a[k] && b[1..][k - 1] == b[k];
      }
    }
  }

  /** A smaller front element, or an equal one followed by a first difference of the tails, is a first difference. */
  lemma FirstDifferenceFromTail(a: seq<nat>, b: seq<nat>)
    requires |a| > 0
    ensures |b| > 0 && (a[0] < b[0] || (a[0] == b[0] && FirstDifferenceLess(a[1..], b[1..]))) ==>
      FirstDifferenceLess(a, b)
  {
    if |b| > 0 && a[0] < b[0] {
      assert a[..0] == b[..0];
    }
    if |b| > 0 && a[0] == b[0] && FirstDifferenceLess(a[1..], b[1..]) {
      var j :| 0 <= j <= |a[1..]| && j < |b[1..]| && a[1..][..j] == b[1..][..j]
               && (j == |a[1..]| || a[1..][j] < b[1..][j]);
      assert a[..j + 1] == [a[0]] + a[1..][..j];
      assert b[..j + 1] == [b[0]] + b[1..][..j];
      if j < |a[1..]| {
        assert a[j + 1] == a[1..][j] && b[j + 1] == b[1..][j];
      }
    }
  }

  /** Python's `<` on tuples of integers, element by element from the front;
      it agrees with the first-difference definition. */
  predicate LexLess(a: seq<nat>, b: seq<nat>)
    ensures LexLess(a, b) <==> FirstDifferenceLess(a, b)
    decreases |a|
  {
    if |a| == 0 then
      FirstDifferenceEmpty(a, b);
      |b| > 0
    else
      FirstDifferenceStep(a, b);
      |b| > 0 && (a[0] < b[0] || (a[0] == b[0] && LexLess(a[1..], b[1..])))
  }

  lemma {:induction false} LexIrreflexive(a: seq<nat>)
    ensures !LexLess(a, a)
    decreases |a|
  {
    if |a| > 0 {
      LexIrreflexive(a[1..]);
    }
  }

  lemma {:induction false} LexAsymmetric(a: seq<nat>, b: seq<nat>)
    ensures LexLess(a, b) ==> !LexLess(b, a)
    decreases |a|
  {
    if |a| > 0 && |b| > 0 {
      LexAsymmetric(a[1..], b[1..]);
    }
  }

  lemma {:induction false} LexTransitive(a: seq<nat>, b: seq<nat>, c: seq<nat>)
    ensures LexLess(a, b) && LexLess(b, c) ==> LexLess(a, c)
    decreases |a|
  {
    if |a| > 0 && |b| > 0 && |c| > 0 {
      LexTransitive(a[1..], b[1..], c[1..]);
    }
  }

  /** Any two different versions are ordered one way or the other. */
  lemma {:induction false} LexTotal(a: seq<nat>, b: seq<nat>)
    ensures a == b || LexLess(a, b) || LexLess(b, a)
    decreases |a|
  {
    if |a| > 0 && |b| > 0 && a[0] == b[0] {
      LexTotal(a[1..], b[1..]);
      if a[1..] == b[1..] {
        assert a == [a[0]] + a[1..] && b == [b[0]] + b[1..];
      }
    }
  }

  /** A proper prefix sorts first: `(1, 2) < (1, 2, 0)`. */
  lemma {:induction false} PrefixIsLess(a: seq<nat>, b: seq<nat>)
    requires |a| < |b| && a == b[..|a|]
    ensures LexLess(a, b)
    decreases |a|
  {
    if |a| > 0 {
      assert a[0] == b[0];
      assert a[1..] == b[1..][..|a| - 1];
      PrefixIsLess(a[1..], b[1..]);
    }
  }

  /** The sign `compare_versions` reports for two parsed versions. */
  function Compare(a: seq<nat>, b: seq<nat>): (r: int)
    ensures r == -1 <==> LexLess(a, b)
    ensures r == 1 <==> LexLess(b, a)
    ensures r == 0 <==> a == b
  {
    LexAsymmetric(a, b);
    LexTotal(a, b);
    LexIrreflexive(a);
    if LexLess(a, b) then -1 else if LexLess(b, a) then 1 else 0
  }

  /** `compare_versions(s1, s2)`: -1, 0 or 1 by the order of the parsed
      versions; an invalid string raises its ValidationError, the first one first. */
  function CompareVersions(s1: string, s2: string): (r: Result<int>)
    ensures ParseVersion(s1).Err? ==> r == Err(ParseVersion(s1).error)
    ensures ParseVersion(s1).Ok? && ParseVersion(s2).Err? ==> r == Err(ParseVersion(s2).error)
    ensures r.Ok? <==> ParseVersion(s1).Ok? && ParseVersion(s2).Ok?
    ensures r.Ok? ==> var v1, v2 := ParseVersion(s1).value, ParseVersion(s2).value;
      && (r.value == -1 <==> LexLess(v1, v2))
      && (r.value == 0 <==> v1 == v2)
      && (r.value == 1 <==> LexLess(v2, v1))
  {
    var v1 :- ParseVersion(s1);
    var v2 :- ParseVersion(s2);
    Ok(Compare(v1, v2))
  }

  /** Comparing a valid version with itself gives 0, and swapping the arguments negates the result. */
  lemma CompareVersionsAntisymmetric(s1: string, s2: string)
    requires ParseVersion(s1).Ok? && ParseVersion(s2).Ok?
    ensures CompareVersions(s1, s1) == Ok(0)
    ensures CompareVersions(s1, s2).value == -CompareVersions(s2, s1).value
  {
    LexAsymmetric(ParseVersion(s1).value, ParseVersion(s2).value);
  }

  /** The text of a one-number version is that number's text. */
  lemma FormatSingle(x: nat)
    ensures FormatVersion([x]) == NatToString(x)
  {
    assert seq(1, i requires 0 <= i < 1 => NatToString([x][i])) == [NatToString(x)];
  }

  /** The text of a longer version is its first number, a dot, and the text of the rest. */
  lemma FormatCons(x: nat, rest: seq<nat>)
    requires |rest| > 0
    ensures FormatVersion([x] + rest) == NatToString(x) + "." + FormatVersion(rest)
  {
    var v := [x] + rest;
    var pieces := seq(|v|, i requires 0 <= i < |v| => NatToString(v[i]));
    assert pieces[1..] == seq(|rest|, i requires 0 <= i < |rest| => NatToString(rest[i]));
  }

  lemma DigitTexts()
    ensures NatToString(0) == "0" && NatToString(1) == "1" && NatToString(2) == "2" && NatToString(3) == "3"
  {
  }

  /** The dotted texts of the versions the tests compare. */
  lemma ExampleTexts()
    ensures FormatVersion([1, 2]) == "1.2" && FormatVersion([1, 2, 0]) == "1.2.0"
    ensures FormatVersion([1, 2, 3]) == "1.2.3" && FormatVersion([2, 0, 0]) == "2.0.0"
  {
    DigitTexts();
    FormatSingle(0);
    FormatSingle(2);
    FormatSingle(3);
    FormatCons(1, [2]);
    assert [1, 2] == [1] + [2];
    FormatCons(2, [0]);
    FormatCons(0, [0]);
    FormatCons(2, [3]);
    FormatCons(1, [2, 0]);
    FormatCons(1, [2, 3]);
    FormatCons(2, [0, 0]);
    assert [1, 2, 0] == [1] + [2, 0] && [2, 0] == [2] + [0];
    assert [1, 2, 3] == [1] + [2, 3] && [2, 3] == [2] + [3];
    assert [2, 0, 0] == [2] + [0, 0] && [0, 0] == [0] + [0];
  }

  /** The comparisons of the tests: "1.2.3" equals itself, is below "2.0.0",
      "2.0.0" is above "1.2.3", and "1.2" is below "1.2.0". */
  lemma CompareExamples()
    ensures CompareVersions("1.2.3", "1.2.3") == Ok(0)
    ensures CompareVersions("1.2.3", "2.0.0") == Ok(-1)
    ensures CompareVersions("2.0.0", "1.2.3") == Ok(1)
    ensures CompareVersions("1.2", "1.2.0") == Ok(-1)
  {
    ExampleTexts();
    FormatParse([1, 2]);
    FormatParse([1, 2, 0]);
    FormatParse([2, 0, 0]);
    FormatParse([1, 2, 3]);
    PrefixIsLess([1, 2], [1, 2, 0]);
  }
}

=== FILE: wrappers.dfy ===
/** Optional values, standing for Python's `Optional[...]` and for a
    dictionary key that may be absent. */
module Wrappers {

  datatype Option<+T> = None | Some(value: T) {

    /** The wrapped value, or `default` when there is none (Python's `dict.get(k, default)`). */
    function GetOr(default: T): T {
      match this
      case Some(v) => v
      case None => default
    }
  }
}
